=== FILE: README.md ===
# Store patch engine, modelled in Dafny

This project models the state-patching engine of the few-ui store (`src/store.ts`):

- `getPatch(data, action)` works out which dotted paths an action would change. Change means `!==`.
- `patchData(patch, data)` writes a patch into the data, in place, with lodash `set` and `unset`.
- `createReducer` / `reducer` return the same state when nothing changes. Otherwise they return a shallow copy of the patched state.

The JavaScript heap is modelled explicitly, because object identity matters in two places:
- `!==` compares objects by reference;
- lodash `set` writes into nested objects that the old and new states share.

The modules are:

- `Paths`: dotted paths. `Split` cuts a path at every `.`, and `Join` is its inverse.
- `Objects`: the heap.
  - A value is `undefined`, a primitive (boolean, number, string, or an opaque function) or an object reference.
  - An object is an ordered list of own properties, in insertion order.
  - `Descend`/`GetValue` is the `getValue` path read. It gives `undefined` as soon as a step is not an object.
  - `SetIn` is lodash `set`. A missing or primitive intermediate becomes a fresh `{}` (function values: see "Left out").
  - `UnsetIn` is lodash `unset`. It deletes the last key from its parent, if the parent is an object.
  - `Valid` is heap well-formedness: references are live and keys are distinct.
- `Diff`: `getPatch` as the function `PatchOf`, and its properties.
- `Apply`: `patchData` as the left fold `ApplyPatch`, the reducer as `CreateReducer`/`Reduced`, and their properties.
- `Store`: the class `Heap`, whose fields are the objects and the next free reference. It starts empty, and `NewObject` allocates an object literal. Its other methods are the source's operations on that mutable state:
  - `GetPatch` and `DiffEntries`, which has the `for...in` loop;
  - `PatchData` has the in-place fold;
  - `SpreadCopy` is `{ ...obj }`;
  - `Reduce` is the reducer.

  Each method is proved equal to the function that specifies it.

Three behaviours of `src/store.ts` that the model keeps as written:
- An action without `path` whose value is not an object (a number, say) gives an empty patch: lines 40-50 have no branch for it.
- An empty joined path with an object value emits every entry of that value, changed or not (line 59), so that case is not minimal.
- `patchData` mutates the data it is given (lines 74-77), and the reducer spreads the patched data afterwards (line 108). So the caller's state, and the nested objects the new state shares with it, are mutated too.

## Model

| member | source | states |
|---|---|---|
| Objects.Lookup | src/store.ts:44 | `obj[k]`: an absent key reads `undefined` |
| Objects.Put | src/store.ts:76 | `obj[k] = v` on an existing object inside lodash `set`: an existing key keeps its place, so the key order and the length are unchanged; a new key is appended last |
| Objects.Delete | src/store.ts:76 | `delete obj[k]` inside lodash `unset`: the key is gone afterwards, and nothing is added |
| Objects.Descend | src/store.ts:46 | the path read behind `getValue`: a defined result means every step of the path looked a key up in an object |
| Objects.GetValue | src/store.ts:46 | `getValue(data, path)` on a dotted path: a defined result means the path was followed to its last key |
| Objects.SetIn | src/store.ts:76 | lodash `set`: objects are only ever added, never removed |
| Objects.UnsetIn | src/store.ts:76 | lodash `unset`: no object is added or removed, and when the parent is an object it no longer has the last key |
| Paths.Split | src/store.ts:46 | every path, the empty one included, is cut into at least one key, as `getValue` here and lodash `set`/`unset` (line 76) cut it |
| Paths.SplitDotFree | src/store.ts:46 | no key of a split path contains a dot, in `getValue` here and in lodash `set`/`unset` (line 76) |
| Paths.SplitPlain | src/store.ts:46 | a key without a dot is a one-step path for `getValue` here and for lodash `set`/`unset` (line 76) |
| Paths.SplitJoin | src/store.ts:46 | joining dot-free keys and splitting the result gives the keys back, so the path built on line 45 is cut into its keys here and at line 76 |
| Paths.SplitDotted | src/store.ts:52 | the path `scope.path` addresses the segments of scope followed by those of path |
| Paths.JoinSplit | src/store.ts:46 | splitting a path and joining the segments gives the path back, so no path read here or at line 76 is lost or merged |
| Objects.GetPlain | src/store.ts:46 | `getValue` of a key without a dot is the data's own property, `undefined` when absent |
| Objects.SetValid | src/store.ts:76 | lodash `set` keeps the heap well formed |
| Objects.SetEffect | src/store.ts:76 | lodash `set` writes one key of one existing object on the path. The value written is the value set, or a fresh `{}` for the first missing intermediate |
| Objects.SetFrame | src/store.ts:76 | lodash `set` leaves every other existing object as it was |
| Objects.GetAfterSet | src/store.ts:76 | after `set(data, path, v)` the path reads `v`, with missing intermediates created, when the path does not run round a cycle |
| Objects.SetLeavesOtherPaths | src/store.ts:76 | `set` leaves every path that never looks up the assigned key in the assigned object reading what it read before, along the same lookups |
| Objects.SetBelow | src/store.ts:76 | `set` of one key below a path that already leads to an object is a plain assignment to that object |
| Objects.UnsetEffect | src/store.ts:76 | lodash `unset`: when the parent is not an object, nothing changes; otherwise only the parent loses the last key; the heap stays well formed with the same objects |
| Objects.DescendAfterDelete | src/store.ts:76 | deleting one key of one object makes every dotted read either read what it read before or `undefined`, never a new value |
| Objects.GetAfterUnset | src/store.ts:76 | after `unset(data, path)` the path reads `undefined`, on every heap, cyclic stores included |
| Objects.UnsetAbsent | test/store.patchData.test.ts:41-44 | unsetting an absent key, or one below a non-object, leaves the heap unchanged |
| Objects.UnsetLeavesOtherPaths | src/store.ts:76 | `unset` leaves every path that never looks up the deleted key in the parent reading what it read before, along the same lookups |
| Diff.ScopedDiff | src/store.ts:43-48 | the `for...in` loop emits at most one entry per key of the value |
| Diff.PatchOf | src/store.ts:38-66 | `getPatch`: an action without a path never throws, and the only error is `getPatch: Invalid path!` |
| Diff.SplitScopedKey | src/store.ts:45 | `scope.key` for a key without a dot is the scope's keys followed by that key |
| Diff.ScopedRead | src/store.ts:45-46 | when the scope leads to an object, reading `scope.key` reads that object's own property |
| Diff.JoinedPath | src/store.ts:52 | the joined path is empty exactly when the scope is missing or empty and the path is empty |
| Diff.ScopedLookup | src/store.ts:45 | reading `scope.key` from the store is reading `key` inside the subtree at `scope` |
| Diff.ExplicitPath | src/store.ts:52-57 | with a non-empty joined path the patch has at most one entry, keyed by the joined path and holding the action's value; it is present if and only if the store's value there `!==` the action's value |
| Diff.Unchanged | test/store.getPatch.test.ts:61-66 | setting a path to the value it holds, including `undefined` over an absent leaf, gives an empty patch |
| Diff.IdentityNotStructure | test/store.getPatch.test.ts:135-146 | another object at a path is a change whatever it contains: the patch holds that entry |
| Diff.NoPathNonObject | src/store.ts:40-42 | without a path, a non-object value (undefined, boolean, number, string) gives an empty patch |
| Diff.ScopedDiffSound | src/store.ts:43-48 | the loop's output is a subsequence of the value's scoped entries, and each entry differs from the store |
| Diff.ScopedDiffComplete | src/store.ts:43-48 | every scoped entry of the value that differs from the store is in the output |
| Diff.NoPathObject | src/store.ts:40-50 | without a path, an object value gives, in key order, exactly the entries `scope.k -> value[k]` (`k -> value[k]` with a falsy scope) whose target differs from the store; dotted keys are kept as they are |
| Diff.WholeStore | src/store.ts:58-59 | an empty joined path with an object value gives no patch when the value is the store itself, and otherwise all of the value's entries |
| Diff.WholeStoreCopy | test/store.getPatch.test.ts:458-464 | a shallow copy of the store given as the whole store is emitted in full, although every entry already holds |
| Diff.OnlyFailure | src/store.ts:58-62 | getPatch fails exactly for an empty joined path with a non-object value, and the error is `getPatch: Invalid path!` |
| Diff.Minimal | src/store.ts:38-66 | outside the whole-store case, every patch entry changes the store, and getPatch does not fail |
| Diff.PatchWellFormed | src/store.ts:38-66 | a patch names each path once and refers only to live objects |
| Apply.ApplyEntry | src/store.ts:76 | one step of `patchData` only adds objects |
| Apply.ApplyPatch | src/store.ts:74-77 | `patchData` as a left fold over the entries: objects are only ever added |
| Apply.Spread | src/store.ts:108 | `{ ...data }`: one new object holding the data's own entries; every other object is unchanged |
| Apply.CreateReducer | src/store.ts:97-100 | `createReducer(update)`: fails exactly when `getPatch` fails, with its message |
| Apply.SpreadPatched | src/store.ts:108 | the update of `reducer`: a new object holding the patched data's entries, added to the patched heap |
| Apply.Reduced | src/store.ts:108 | `reducer`: a new state object holds the entries of the data after the patch |
| Apply.EntryValid | src/store.ts:76 | one step of patchData keeps the heap well formed and only adds objects |
| Apply.EntryRoundTrip | src/store.ts:76 | after one step the path reads the entry's value; after an unset it reads `undefined` unconditionally, after a set when the path does not run round a cycle |
| Apply.ApplyPatchValid | src/store.ts:74-77 | patchData with live values keeps the heap well formed, and no object disappears |
| Apply.FlatEntry | src/store.ts:76 | a step on a key without a dot changes only that key of the data |
| Apply.FlatPatch | test/store.patchData.test.ts:11-39 | a patch of distinct top-level keys overlays the data: each named key holds the patch's value, a key written `undefined` is absent afterwards (not present with `undefined`), and every other key keeps both its presence and its value |
| Apply.EntryLeavesOtherPaths | src/store.ts:76 | one step leaves every path that never looks up the pair it writes reading what it read before |
| Apply.ApplyPatchFrame | src/store.ts:74-77 | after the whole patch, a path that looks up none of the pairs the patch writes reads what it read before |
| Apply.ApplyPatchRoundTrip | src/store.ts:74-77 | after the whole patch, an entry's path reads the entry's value when no later entry writes a pair that descent looks up, and, for a defined value, when its descent has no cycle |
| Apply.NestedPatchAdds | test/store.patchData.test.ts:56-59 | `{ 'a.a2': 4, 'b.b1.b2': 5 }` adds a2 to the existing object and creates b and b.b1 as new objects |
| Apply.SharedObjectOverwrite | src/store.ts:74-77 | two different paths can write the same pair through a shared object, so a later entry can overwrite an earlier one |
| Apply.ScopedEntry | src/store.ts:76 | a step whose path is one key below an existing object writes (or deletes) that key of the object, and nothing else |
| Apply.ScopedPatch | src/store.ts:74-77 | a patch of keys under a scope that leads to an object overlays that object, and the scope still leads to it |
| Apply.ScopedDiffApplied | src/store.ts:40-50 | patching getPatch's output for an object value under a scope leaves each of the value's keys (keys without a dot) holding the value's entry, and every other key as it was |
| Apply.FlatPatchUnchanged | src/store.ts:74-77 | writing back what the data already holds at the top level leaves the heap unchanged |
| Apply.ReducerSkipsUnchanged | src/store.ts:97-100 | for any update function, an empty patch returns the same data and heap, a failure propagates, and otherwise the update's result is returned |
| Apply.ReducedIdentity | src/store.ts:108 | the reducer returns the same reference if and only if the patch is empty, and then the heap is untouched; otherwise it returns a fresh object holding the patched data's entries, and the data itself has been patched in place |
| Apply.ReducedCopyAgrees | test/store.reducer.test.ts:136-149 | the new state reads, at every path, what the patched data reads |
| Apply.ReducedRoundTrip | src/store.ts:97-108 | after a path action the new state reads the action's value at the joined path (for a defined value, when the path does not run round a cycle) |
| Apply.ScopedDiffAgrees | src/store.ts:43-48 | an emitted `scope.key` carries the value's entry, and a key the loop left out already holds that entry in the store |
| Apply.ReducedScopedMerge | test/store.reducer.test.ts:338-382 | an object value under a scope that leads to an object is merged into that object: its keys take its values, and other keys keep theirs |
| Apply.ReducedMerge | test/store.reducer.test.ts:479-486 | an object value without path or scope is merged into the top level: its keys (keys without a dot) take its values, and other keys keep theirs |
| Apply.ReducedWholeStoreCopy | test/store.reducer.test.ts:593-606 | a shallow copy of the state given as the whole store gives a new state object with the same entries, and every existing object is left as it was |
| Store.Heap.DiffEntries | src/store.ts:43-48 | the `for...in` loop returns exactly `ScopedDiff` of the value's entries, in key order |
| Store.Heap.GetPatch | src/store.ts:38-66 | returns `PatchOf` of the current heap and changes nothing |
| Store.Heap.Set | src/store.ts:76 | the heap after lodash `set` is `SetIn` of the old heap, still well formed |
| Store.Heap.Unset | src/store.ts:76 | the heap after lodash `unset` is `UnsetIn` of the old heap, with the same objects |
| Store.Heap.PatchData | src/store.ts:74-77 | returns the data reference itself; the heap becomes `ApplyPatch` of the old heap and stays well formed |
| Store.Heap.NewObject | src/store.ts:108 | allocates one fresh object holding the given entries in order, keeping the heap well formed |
| Store.Heap.SpreadCopy | src/store.ts:108 | `{ ...obj }` allocates one fresh object holding obj's own entries in order |
| Store.Heap.Reduce | src/store.ts:97-108 | the returned reference and new heap are `Reduced` of the old heap; on failure the heap is unchanged and the error is `getPatch: Invalid path!` |

## Left out

- `composeDispatch` (src/store.ts:115-158) is routing glue around callbacks and the helper `parseDataPath`. `./utils` is not part of this model, so `composeDispatch` is left out.
- `getValue`, `isObject` and `parseDataPath` live in `./utils`, which is not part of this model. `getValue` is modelled as the dotted-path descent the tests exercise, with `undefined` on any missing or non-object step.
- Paths use lodash's dotted syntax only. Bracket and array-index syntax, numeric-key array creation and lodash's lookup of an own key that itself contains a dot are not modelled.
- `null`, arrays and the `typeof null === 'object'` quirk are not modelled. Functions are opaque leaves with an identity.
- `Objects.SetIn`: a `set` through a function-valued entry. lodash writes the property onto the function; the model replaces the function with a fresh `{}`, because functions carry no properties here. Numbers are integers, so floating point and `NaN !== NaN` are not modelled.
- JavaScript puts integer-like keys first when it enumerates an object's keys. The model keeps plain insertion order throughout.
- `Diff.WholeStore`: in the source the patch is then the value object itself, a reference. The model gives that object's list of entries, which is all the reducer reads.
- `createReducer` is modelled for any update function of the heap (`CreateReducer`). The only instance proved further is the one `reducer` uses.
- `Apply.ReducedRoundTrip`: stated for actions with a path, which give a single entry. For multi-entry patches the whole-patch read-back is `Apply.ApplyPatchRoundTrip`, and the merges are `Apply.FlatPatch`, `Apply.ReducedMerge` and `Apply.ReducedScopedMerge`.
- `Apply.ApplyPatchRoundTrip`: its hypothesis is about the pairs that later entries write, in the heaps they start from. Paths that are not prefixes of one another do not suffice: they can still write the same pair through a shared object (`Apply.SharedObjectOverwrite`).
- `Apply.ReducedScopedMerge`: requires the scope to lead to an existing object, and requires the scope's own descent not to pass through that object. When the scope is missing, the first entry creates it, and the read-back then rests on `Apply.ApplyPatchRoundTrip`. Keys with dots under a scope also rest on `Apply.ApplyPatchRoundTrip`.
- `Objects.GetAfterSet`, `Apply.EntryRoundTrip`, `Apply.ApplyPatchRoundTrip`, `Apply.ReducedRoundTrip`: for a defined value they require the path not to pass through the same object twice. On a cyclic store a `set` can overwrite an object its own descent passes through, so the read-back can fail in the source as well. An unset needs no such condition.
- The disabled string-valued cases (`xit` in test/store.reducer.test.ts) are not modelled.

=== FILE: Apply.dfy ===
/**
 * Applying a patch and the reducer built on top of it.  `patchData` walks the
 * patch in order and, for each dotted path, unsets it when the value is
 * `undefined` and sets it otherwise, directly on the data it was given; the
 * reducer then hands back a shallow copy of that data when something changed.
 */
module Apply {
  import opened Paths
  import opened Objects
  import opened Diff

  /** One step of `patchData`: `undefined` unsets the path, anything else sets it. */
  function ApplyEntry(m: Mem, data: Ref, entry: (string, Value)): (m': Mem)
    ensures m.objs.Keys <= m'.objs.Keys && m.next <= m'.next
  {
    if entry.1 == Undef then UnsetIn(m, data, Split(entry.0))
    else SetIn(m, data, Split(entry.0), entry.1)
  }

  /** `patchData(patch, data)`: every entry applied, first to last, to the same data. */
  function ApplyPatch(m: Mem, data: Ref, patch: Patch): (m': Mem)
    ensures m.objs.Keys <= m'.objs.Keys && m.next <= m'.next
    decreases |patch|
  {
    if patch == [] then m else ApplyPatch(ApplyEntry(m, data, patch[0]), data, patch[1..])
  }

  /** `{...data}`: a fresh object holding the data's own entries. */
  function Spread(m: Mem, data: Ref): (res: (Ref, Mem))
    ensures res.1.objs.Keys == m.objs.Keys + {res.0} && res.1.next == res.0 + 1
    ensures PropsOf(res.1, res.0) == PropsOf(m, data)
    ensures forall x | x in m.objs && x != res.0 :: PropsOf(res.1, x) == PropsOf(m, x)
  {
    (m.next, Alloc(m, PropsOf(m, data)))
  }

  /**
   * `createReducer(updateFn)(data, action)`: the patch of the action, then the
   * same data when it has no entry and the update's result otherwise; the
   * error of getPatch propagates.
   */
  function CreateReducer(update: (Mem, Ref, Patch) -> (Ref, Mem), m: Mem, data: Ref, action: Action): (r: Result<(Ref, Mem)>)
    ensures r.Failure? <==> PatchOf(m, data, action).Failure?
    ensures r.Failure? ==> r.message == InvalidPathMessage
  {
    match PatchOf(m, data, action)
    case Failure(e) => Failure(e)
    case Success(patch) =>
      if |patch| > 0 then Success(update(m, data, patch)) else Success((data, m))
  }

  /** The update of `reducer`: `{ ...patchData(patch, data) }`. */
  function SpreadPatched(m: Mem, data: Ref, patch: Patch): (res: (Ref, Mem))
    ensures res.1.objs.Keys == ApplyPatch(m, data, patch).objs.Keys + {res.0}
    ensures PropsOf(res.1, res.0) == PropsOf(ApplyPatch(m, data, patch), data)
  {
    Spread(ApplyPatch(m, data, patch), data)
  }

  /** `reducer(data, action)`. */
  function Reduced(m: Mem, data: Ref, action: Action): (r: Result<(Ref, Mem)>)
    ensures r.Success? && PatchOf(m, data, action).Success? && r.value.0 != data ==>
              PropsOf(r.value.1, r.value.0) == PropsOf(ApplyPatch(m, data, PatchOf(m, data, action).value), data)
  {
    CreateReducer(SpreadPatched, m, data, action)
  }

  /** Whatever the update, a reducer keeps the state when nothing changes and reports the invalid path. */
  lemma ReducerSkipsUnchanged(update: (Mem, Ref, Patch) -> (Ref, Mem), m: Mem, data: Ref, action: Action)
    ensures PatchOf(m, data, action) == Success([]) ==> CreateReducer(update, m, data, action) == Success((data, m))
    ensures PatchOf(m, data, action).Failure? ==>
              CreateReducer(update, m, data, action) == Failure(InvalidPathMessage)
    ensures PatchOf(m, data, action).Success? && PatchOf(m, data, action).value != [] ==>
              CreateReducer(update, m, data, action) == Success(update(m, data, PatchOf(m, data, action).value))
  {
    OnlyFailure(m, data, action);
  }

  // ---------------------------------------------------------------------------
  // patchData

  /** A step keeps the heap well formed and only ever adds objects. */
  lemma EntryValid(m: Mem, data: Ref, entry: (string, Value))
    requires Valid(m) && data in m.objs && ValueIn(m.objs.Keys, entry.1)
    ensures Valid(ApplyEntry(m, data, entry))
    ensures m.objs.Keys <= ApplyEntry(m, data, entry).objs.Keys
    ensures m.next <= ApplyEntry(m, data, entry).next
  {
    if entry.1 == Undef {
      UnsetEffect(m, data, Split(entry.0));
    } else {
      SetValid(m, data, Split(entry.0), entry.1);
    }
  }

  /** Round trip of one step: the path reads back the value just written (`undefined` after an unset). */
  lemma EntryRoundTrip(m: Mem, data: Ref, entry: (string, Value))
    requires Valid(m) && data in m.objs && ValueIn(m.objs.Keys, entry.1)
    requires entry.1 != Undef ==> NoRepeat(Visited(m, Obj(data), Split(entry.0)))
    ensures GetValue(ApplyEntry(m, data, entry), data, entry.0) == entry.1
  {
    if entry.1 == Undef {
      GetAfterUnset(m, data, Split(entry.0));
    } else {
      GetAfterSet(m, data, Split(entry.0), entry.1);
    }
  }

  /** Applying a patch whose values are live objects keeps the heap well formed. */
  lemma {:induction false} ApplyPatchValid(m: Mem, data: Ref, patch: Patch)
    requires Valid(m) && data in m.objs && Within(patch, m.objs.Keys)
    ensures Valid(ApplyPatch(m, data, patch))
    ensures m.objs.Keys <= ApplyPatch(m, data, patch).objs.Keys
    ensures m.next <= ApplyPatch(m, data, patch).next
    decreases |patch|
  {
    if patch != [] {
      EntryValid(m, data, patch[0]);
      var m1 := ApplyEntry(m, data, patch[0]);
      WithinMono(patch[1..], m.objs.Keys, m1.objs.Keys);
      ApplyPatchValid(m1, data, patch[1..]);
    }
  }

  /** A step on a key without a dot touches only that key of the data. */
  lemma FlatEntry(m: Mem, data: Ref, entry: (string, Value), j: string)
    requires '.' !in entry.0
    ensures Lookup(PropsOf(ApplyEntry(m, data, entry), data), j) ==
              if j == entry.0 then entry.1 else Lookup(PropsOf(m, data), j)
    ensures HasKey(PropsOf(ApplyEntry(m, data, entry), data), j) <==>
              if j == entry.0 then entry.1 != Undef else HasKey(PropsOf(m, data), j)
  {
    SplitPlain(entry.0);
    var props := PropsOf(m, data);
    if entry.1 == Undef {
      assert Parent(m, data, [entry.0]) == Obj(data);
      LookupDelete(props, entry.0, j);
      HasKeyDelete(props, entry.0, j);
    } else {
      LookupPut(props, entry.0, entry.1, j);
      HasKeyPut(props, entry.0, entry.1, j);
    }
  }

  /**
   * A patch of distinct keys without dots is an overlay: afterwards the data
   * holds the patch's value at every key the patch names (a missing key for
   * `undefined`) and its old value everywhere else.
   */
  lemma {:induction false} FlatPatch(m: Mem, data: Ref, patch: Patch, j: string)
    requires KeysDistinct(patch)
    requires forall i :: 0 <= i < |patch| ==> '.' !in patch[i].0
    ensures Lookup(PropsOf(ApplyPatch(m, data, patch), data), j) ==
              if HasKey(patch, j) then Lookup(patch, j) else Lookup(PropsOf(m, data), j)
    ensures HasKey(PropsOf(ApplyPatch(m, data, patch), data), j) <==>
              if HasKey(patch, j) then Lookup(patch, j) != Undef else HasKey(PropsOf(m, data), j)
    decreases |patch|
  {
    if patch != [] {
      assert '.' !in patch[0].0;
      FlatEntry(m, data, patch[0], j);
      FlatPatch(ApplyEntry(m, data, patch[0]), data, patch[1..], j);
    }
  }

  /** A patch that writes back, key by key, what the data already holds at the top level changes nothing. */
  lemma {:induction false} FlatPatchUnchanged(m: Mem, data: Ref, patch: Patch)
    requires data in m.objs
    requires forall i :: 0 <= i < |patch| ==>
               && '.' !in patch[i].0 && patch[i].1 != Undef
               && HasKey(PropsOf(m, data), patch[i].0) && Lookup(PropsOf(m, data), patch[i].0) == patch[i].1
    ensures ApplyPatch(m, data, patch) == m
    decreases |patch|
  {
    if patch != [] {
      var (k, v) := patch[0];
      SplitPlain(k);
      PutSame(PropsOf(m, data), k);
      assert m.objs[data := PropsOf(m, data)] == m.objs;
      assert ApplyEntry(m, data, patch[0]) == m;
      FlatPatchUnchanged(m, data, patch[1..]);
    }
  }

  /** `a + b` applied is a applied, then b. */
  lemma {:induction false} ApplyPatchAppend(m: Mem, data: Ref, a: Patch, b: Patch)
    ensures ApplyPatch(m, data, a + b) == ApplyPatch(ApplyPatch(m, data, a), data, b)
    decreases |a|
  {
    if a == [] {
      assert a + b == b;
    } else {
      assert (a + b)[0] == a[0] && (a + b)[1..] == a[1..] + b;
      ApplyPatchAppend(ApplyEntry(m, data, a[0]), data, a[1..], b);
    }
  }

  /**
   * The (object, key) pair among the existing objects that one step assigns
   * or deletes: none when an unset finds no object to delete from.
   */
  function Written(m: Mem, data: Ref, entry: (string, Value)): seq<(Ref, string)>
  {
    var segs := Split(entry.0);
    if entry.1 == Undef then
      match Parent(m, data, segs)
      case Obj(q) => [(q, segs[|segs| - 1])]
      case _ => []
    else
      var t := Target(m, data, segs, entry.1);
      [(t.0, t.1)]
  }

  /** The pairs written by every step of a patch, each in the heap that step starts from. */
  function PatchWrites(m: Mem, data: Ref, patch: Patch): seq<(Ref, string)>
    decreases |patch|
  {
    if patch == [] then []
    else Written(m, data, patch[0]) + PatchWrites(ApplyEntry(m, data, patch[0]), data, patch[1..])
  }

  /** A step leaves alone every path that never looks up the pair it writes. */
  lemma EntryLeavesOtherPaths(m: Mem, data: Ref, entry: (string, Value), w: Value, other: seq<string>)
    requires Valid(m) && data in m.objs && ValueIn(m.objs.Keys, entry.1) && ValueIn(m.objs.Keys, w)
    requires forall p | p in Written(m, data, entry) :: p !in Reads(m, w, other)
    ensures Descend(ApplyEntry(m, data, entry), w, other) == Descend(m, w, other)
    ensures Reads(ApplyEntry(m, data, entry), w, other) == Reads(m, w, other)
  {
    var segs := Split(entry.0);
    if entry.1 == Undef {
      if Parent(m, data, segs).Obj? {
        assert (Parent(m, data, segs).ref, segs[|segs| - 1]) in Written(m, data, entry);
      }
      UnsetLeavesOtherPaths(m, data, segs, w, other);
    } else {
      var t := Target(m, data, segs, entry.1);
      assert (t.0, t.1) in Written(m, data, entry);
      SetLeavesOtherPaths(m, data, segs, entry.1, w, other);
    }
  }

  /**
   * The frame of patchData: a path that looks up none of the pairs the patch
   * writes reads, after the whole patch, what it read before.
   */
  lemma {:induction false} ApplyPatchFrame(m: Mem, data: Ref, patch: Patch, w: Value, other: seq<string>)
    requires Valid(m) && data in m.objs && Within(patch, m.objs.Keys) && ValueIn(m.objs.Keys, w)
    requires forall p | p in PatchWrites(m, data, patch) :: p !in Reads(m, w, other)
    ensures Descend(ApplyPatch(m, data, patch), w, other) == Descend(m, w, other)
    decreases |patch|
  {
    if patch != [] {
      var m1 := ApplyEntry(m, data, patch[0]);
      EntryLeavesOtherPaths(m, data, patch[0], w, other);
      EntryValid(m, data, patch[0]);
      WithinMono(patch[1..], m.objs.Keys, m1.objs.Keys);
      ApplyPatchFrame(m1, data, patch[1..], w, other);
    }
  }

  /**
   * Round trip of patchData for one entry of a longer patch: the entry's path
   * reads its value afterwards when no later entry writes a pair that descent
   * looks up, and, for a defined value, when its descent does not run round a cycle.
   */
  lemma ApplyPatchRoundTrip(m: Mem, data: Ref, before: Patch, e: (string, Value), after: Patch)
    requires Valid(m) && data in m.objs && Within(before + [e] + after, m.objs.Keys)
    requires e.1 != Undef ==> NoRepeat(Visited(ApplyPatch(m, data, before), Obj(data), Split(e.0)))
    requires var m1 := ApplyPatch(m, data, before + [e]);
             forall p | p in PatchWrites(m1, data, after) :: p !in Reads(m1, Obj(data), Split(e.0))
    ensures GetValue(ApplyPatch(m, data, before + [e] + after), data, e.0) == e.1
  {
    WithinAppend(before + [e], after, m.objs.Keys);
    WithinAppend(before, [e], m.objs.Keys);
    ApplyPatchValid(m, data, before);
    var mb := ApplyPatch(m, data, before);
    ApplyPatchAppend(m, data, before, [e]);
    assert ApplyPatch(mb, data, [e]) == ApplyEntry(mb, data, e);
    WithinMono([e], m.objs.Keys, mb.objs.Keys);
    EntryRoundTrip(mb, data, e);
    EntryValid(mb, data, e);
    var m1 := ApplyEntry(mb, data, e);
    WithinMono(after, m.objs.Keys, m1.objs.Keys);
    ApplyPatchFrame(m1, data, after, Obj(data), Split(e.0));
    ApplyPatchAppend(m, data, before + [e], after);
  }

  /**
   * patchData of `{ 'a.a2': 4, 'b.b1.b2': 5 }` into `{ a: { a1: 3 } }`: a2 is
   * added to the existing object a, and b and b.b1 are created as new objects.
   */
  lemma NestedPatchAdds()
    ensures var m := Mem(map[0 := [("a", Obj(1))], 1 := [("a1", Prim(Num(3)))]], 2);
            var patch := [("a.a2", Prim(Num(4))), ("b.b1.b2", Prim(Num(5)))];
            ApplyPatch(m, 0, patch) ==
              Mem(map[0 := [("a", Obj(1)), ("b", Obj(2))],
                      1 := [("a1", Prim(Num(3))), ("a2", Prim(Num(4)))],
                      2 := [("b1", Obj(3))],
                      3 := [("b2", Prim(Num(5)))]], 4)
  {
    var m := Mem(map[0 := [("a", Obj(1))], 1 := [("a1", Prim(Num(3)))]], 2);
    var m1 := Mem(map[0 := [("a", Obj(1))], 1 := [("a1", Prim(Num(3))), ("a2", Prim(Num(4)))]], 2);
    var patch := [("a.a2", Prim(Num(4))), ("b.b1.b2", Prim(Num(5)))];
    NestedSplits();
    NestedFirst();
    NestedSecond();
    assert patch[1..] == [("b.b1.b2", Prim(Num(5)))];
    assert ApplyPatch(m, 0, patch) == ApplyPatch(m1, 0, patch[1..]);
  }

  lemma NestedSplits()
    ensures Split("a.a2") == ["a", "a2"] && Split("b.b1.b2") == ["b", "b1", "b2"]
  {
    assert "b" + "." + "b1.b2" == "b.b1.b2" && "b1" + "." + "b2" == "b1.b2" && "a" + "." + "a2" == "a.a2";
    SplitDotted("a", "a2");
    SplitDotted("b", "b1.b2");
    SplitDotted("b1", "b2");
    SplitPlain("a");
    SplitPlain("a2");
    SplitPlain("b");
    SplitPlain("b1");
    SplitPlain("b2");
  }

  lemma NestedFirst()
    ensures SetIn(Mem(map[0 := [("a", Obj(1))], 1 := [("a1", Prim(Num(3)))]], 2), 0, ["a", "a2"], Prim(Num(4))) ==
            Mem(map[0 := [("a", Obj(1))], 1 := [("a1", Prim(Num(3))), ("a2", Prim(Num(4)))]], 2)
  {
    var m := Mem(map[0 := [("a", Obj(1))], 1 := [("a1", Prim(Num(3)))]], 2);
    assert Lookup(PropsOf(m, 0), "a") == Obj(1);
    assert ["a", "a2"][1..] == ["a2"];
    assert Put(PropsOf(m, 1), "a2", Prim(Num(4))) == [("a1", Prim(Num(3))), ("a2", Prim(Num(4)))];
  }

  lemma NestedSecond()
    ensures SetIn(Mem(map[0 := [("a", Obj(1))], 1 := [("a1", Prim(Num(3))), ("a2", Prim(Num(4)))]], 2),
                  0, ["b", "b1", "b2"], Prim(Num(5))) ==
            Mem(map[0 := [("a", Obj(1)), ("b", Obj(2))],
                    1 := [("a1", Prim(Num(3))), ("a2", Prim(Num(4)))],
                    2 := [("b1", Obj(3))],
                    3 := [("b2", Prim(Num(5)))]], 4)
  {
    var m1 := Mem(map[0 := [("a", Obj(1))], 1 := [("a1", Prim(Num(3))), ("a2", Prim(Num(4)))]], 2);
    assert Lookup(PropsOf(m1, 0), "b") == Undef;
    assert Put(PropsOf(m1, 0), "b", Obj(2)) == [("a", Obj(1)), ("b", Obj(2))];
    var m2 := Update(Alloc(m1, []), 0, [("a", Obj(1)), ("b", Obj(2))]);
    assert ["b", "b1", "b2"][1..] == ["b1", "b2"];
    assert SetIn(m1, 0, ["b", "b1", "b2"], Prim(Num(5))) == SetIn(m2, 2, ["b1", "b2"], Prim(Num(5)));
    assert PropsOf(m2, 2) == [];
    var m3 := Update(Alloc(m2, []), 2, [("b1", Obj(3))]);
    assert ["b1", "b2"][1..] == ["b2"];
    assert SetIn(m2, 2, ["b1", "b2"], Prim(Num(5))) == SetIn(m3, 3, ["b2"], Prim(Num(5)));
    assert PropsOf(m3, 3) == [];
  }

  /**
   * Two entries with different paths can still write the same pair when the
   * data holds one object under two keys: with `data.a === data.b`, the patch
   * `{ 'a.x': 1, 'b.x': 2 }` leaves `a.x` reading 2.
   */
  lemma SharedObjectOverwrite()
    ensures var m := Mem(map[0 := [("a", Obj(1)), ("b", Obj(1))], 1 := []], 2);
            var patch := [("a.x", Prim(Num(1))), ("b.x", Prim(Num(2)))];
            GetValue(ApplyPatch(m, 0, patch), 0, "a.x") == Prim(Num(2))
  {
    var m := Mem(map[0 := [("a", Obj(1)), ("b", Obj(1))], 1 := []], 2);
    SplitDotted("a", "x");
    SplitDotted("b", "x");
    SplitPlain("a");
    SplitPlain("b");
    SplitPlain("x");
    var m1 := SetIn(m, 0, ["a", "x"], Prim(Num(1)));
    assert m1 == Update(m, 1, [("x", Prim(Num(1)))]);
    assert PropsOf(m1, 0) == [("a", Obj(1)), ("b", Obj(1))];
    assert Lookup(PropsOf(m1, 0), "b") == Obj(1);
    assert ["b", "x"][1..] == ["x"];
    var m2 := SetIn(m1, 0, ["b", "x"], Prim(Num(2)));
    assert m2 == SetIn(m1, 1, ["x"], Prim(Num(2)));
    assert PropsOf(m1, 1) == [("x", Prim(Num(1)))];
    assert Put(PropsOf(m1, 1), "x", Prim(Num(2))) == [("x", Prim(Num(2)))];
    assert m2 == Update(m1, 1, [("x", Prim(Num(2)))]);
  }

  /** `obj[k] = v`, or `delete obj[k]` when v is `undefined`: what a step does to the object that holds the key. */
  function Write(p: Props, k: string, v: Value): Props
  {
    if v == Undef then Delete(p, k) else Put(p, k, v)
  }

  lemma LookupWrite(p: Props, k: string, v: Value, j: string)
    ensures Lookup(Write(p, k, v), j) == if j == k then v else Lookup(p, j)
  {
    if v == Undef {
      LookupDelete(p, k, j);
    } else {
      LookupPut(p, k, v, j);
    }
  }

  /** A step whose path is one key below an object already there writes that key of the object and nothing else. */
  lemma ScopedEntry(m: Mem, data: Ref, a: seq<string>, o: Ref, k: string, e: (string, Value))
    requires Descend(m, Obj(data), a) == Obj(o) && Split(e.0) == a + [k]
    ensures ApplyEntry(m, data, e) == Update(m, o, Write(PropsOf(m, o), k, e.1))
  {
    if e.1 == Undef {
      assert (a + [k])[..|a|] == a;
    } else {
      SetBelow(m, data, a, o, k, e.1);
    }
  }

  /**
   * A patch of keys without dots placed under a scope that leads to an object
   * o (and does not pass through o on the way) overlays o: afterwards o holds
   * the patch's value at every key the patch names and its old value elsewhere,
   * and the scope still leads to o.
   */
  lemma {:induction false} ScopedPatch(m: Mem, data: Ref, scope: Option<string>, o: Ref, entries: Props, patch: Patch, j: string)
    requires Descend(m, Obj(data), ScopeSegs(scope)) == Obj(o) && o !in Visited(m, Obj(data), ScopeSegs(scope))
    requires forall i :: 0 <= i < |entries| ==> '.' !in entries[i].0
    requires KeysDistinct(patch) && forall e | e in patch :: e in Scoped(scope, entries)
    ensures Descend(ApplyPatch(m, data, patch), Obj(data), ScopeSegs(scope)) == Obj(o)
    ensures Visited(ApplyPatch(m, data, patch), Obj(data), ScopeSegs(scope)) == Visited(m, Obj(data), ScopeSegs(scope))
    ensures Lookup(PropsOf(ApplyPatch(m, data, patch), o), j) ==
              if HasKey(patch, ScopedKey(scope, j)) then Lookup(patch, ScopedKey(scope, j)) else Lookup(PropsOf(m, o), j)
    decreases |patch|
  {
    if patch != [] {
      var e := patch[0];
      assert e in patch;
      var i := ScopedIn(scope, entries, e);
      var k := entries[i].0;
      SplitScopedKey(scope, k);
      var a := ScopeSegs(scope);
      ScopedEntry(m, data, a, o, k, e);
      var m1 := ApplyEntry(m, data, e);
      DescendUnchanged(m, m1, Obj(data), a);
      LookupWrite(PropsOf(m, o), k, e.1, j);
      assert forall x | x in patch[1..] :: x in patch;
      ScopedPatch(m1, data, scope, o, entries, patch[1..], j);
      if j == k {
        assert !HasKey(patch[1..], e.0);
      } else if ScopedKey(scope, j) == e.0 {
        ScopedKeyInjective(scope, j, k);
      }
    }
  }


  /**
   * The state is replaced only when something changes: with an empty patch the
   * reducer returns the same data and leaves the heap alone; otherwise it
   * returns a fresh object whose entries are those of the patched data, and
   * the data itself has been patched in place too.
   */
  lemma ReducedIdentity(m: Mem, data: Ref, action: Action)
    requires Valid(m) && data in m.objs && ValueIn(m.objs.Keys, action.value)
    ensures Reduced(m, data, action).Failure? <==> PatchOf(m, data, action).Failure?
    ensures Reduced(m, data, action).Failure? ==> Reduced(m, data, action).message == InvalidPathMessage
    ensures Reduced(m, data, action).Success? ==>
              var patch := PatchOf(m, data, action).value;
              var s := Reduced(m, data, action).value.0;
              var m' := Reduced(m, data, action).value.1;
              && Valid(m')
              && (s == data <==> patch == [])
              && (s == data ==> m' == m)
              && (s != data ==>
                    && s !in m.objs && s in m'.objs
                    && m'.objs == ApplyPatch(m, data, patch).objs[s := PropsOf(m', data)])
  {
    OnlyFailure(m, data, action);
    if PatchOf(m, data, action).Success? {
      var patch := PatchOf(m, data, action).value;
      if patch != [] {
        PatchWellFormed(m, data, action);
        ApplyPatchValid(m, data, patch);
        var m1 := ApplyPatch(m, data, patch);
        ValidAlloc(m1, PropsOf(m1, data));
      }
    }
  }

  /**
   * The new state reads, at every path, what the patched data reads there: the
   * shallow copy shares everything below its top level with the data.
   */
  lemma ReducedCopyAgrees(m: Mem, data: Ref, action: Action, path: string)
    requires Valid(m) && data in m.objs && ValueIn(m.objs.Keys, action.value)
    requires PatchOf(m, data, action).Success? && PatchOf(m, data, action).value != []
    ensures Reduced(m, data, action).Success?
    ensures var s := Reduced(m, data, action).value.0;
            var m' := Reduced(m, data, action).value.1;
            GetValue(m', s, path) == GetValue(ApplyPatch(m, data, PatchOf(m, data, action).value), data, path)
  {
    var patch := PatchOf(m, data, action).value;
    PatchWellFormed(m, data, action);
    ApplyPatchValid(m, data, patch);
    var m1 := ApplyPatch(m, data, patch);
    ValidAlloc(m1, PropsOf(m1, data));
    var s := m1.next;
    var m' := Alloc(m1, PropsOf(m1, data));
    var segs := Split(path);
    DescendWithin(m1, Obj(data), segs);
    DescendUnchanged(m1, m', Obj(data), segs);
    assert PropsOf(m', s) == PropsOf(m', data);
    assert Descend(m', Obj(s), segs) == Descend(m', Obj(data), segs);
  }

  /**
   * Round trip of the reducer for an action with a path: afterwards the new
   * state reads the action's value at the joined path (for a defined value,
   * when that path does not run round a cycle).
   */
  lemma ReducedRoundTrip(m: Mem, data: Ref, action: Action)
    requires Valid(m) && data in m.objs && ValueIn(m.objs.Keys, action.value)
    requires action.path.Some? && JoinedPath(action.scope, action.path.value) != ""
    requires action.value != Undef ==> NoRepeat(Visited(m, Obj(data), Split(JoinedPath(action.scope, action.path.value))))
    ensures Reduced(m, data, action).Success?
    ensures var s := Reduced(m, data, action).value.0;
            var m' := Reduced(m, data, action).value.1;
            GetValue(m', s, JoinedPath(action.scope, action.path.value)) == action.value
  {
    var joined := JoinedPath(action.scope, action.path.value);
    ExplicitPath(m, data, action);
    var patch := PatchOf(m, data, action).value;
    if patch != [] {
      EntryRoundTrip(m, data, patch[0]);
      assert ApplyPatch(m, data, patch) == ApplyEntry(m, data, patch[0]);
      ReducedCopyAgrees(m, data, action, joined);
    }
  }

  /**
   * What getPatch emits for an object value carries the value's entry, and an
   * entry the loop leaves out already holds in the store at its scoped path.
   */
  lemma {:induction false} ScopedDiffAgrees(m: Mem, data: Ref, scope: Option<string>, entries: Props, k: string)
    requires KeysDistinct(entries)
    ensures HasKey(ScopedDiff(m, data, scope, entries), ScopedKey(scope, k)) ==> HasKey(entries, k)
    ensures HasKey(ScopedDiff(m, data, scope, entries), ScopedKey(scope, k)) ==>
              Lookup(ScopedDiff(m, data, scope, entries), ScopedKey(scope, k)) == Lookup(entries, k)
    ensures HasKey(entries, k) && !HasKey(ScopedDiff(m, data, scope, entries), ScopedKey(scope, k)) ==>
              Lookup(entries, k) == GetValue(m, data, ScopedKey(scope, k))
  {
    if entries != [] {
      ScopedDiffAgrees(m, data, scope, entries[1..], k);
      var res := ScopedDiff(m, data, scope, entries);
      var rest := ScopedDiff(m, data, scope, entries[1..]);
      if res != rest {
        assert res[0] == (ScopedKey(scope, entries[0].0), entries[0].1) && res[1..] == rest;
      }
      if ScopedKey(scope, entries[0].0) == ScopedKey(scope, k) {
        ScopedKeyInjective(scope, entries[0].0, k);
      }
    }
  }

  /** patchData of getPatch's output for an object value under a scope that leads to the object o. */
  lemma ScopedDiffApplied(m: Mem, data: Ref, scope: Option<string>, entries: Props, o: Ref, k: string)
    requires Valid(m) && KeysDistinct(entries) && Within(entries, m.objs.Keys)
    requires forall i :: 0 <= i < |entries| ==> '.' !in entries[i].0
    requires '.' !in k
    requires Descend(m, Obj(data), ScopeSegs(scope)) == Obj(o) && o !in Visited(m, Obj(data), ScopeSegs(scope))
    ensures GetValue(ApplyPatch(m, data, ScopedDiff(m, data, scope, entries)), data, ScopedKey(scope, k)) ==
              if HasKey(entries, k) then Lookup(entries, k) else GetValue(m, data, ScopedKey(scope, k))
  {
    var patch := ScopedDiff(m, data, scope, entries);
    var path := ScopedKey(scope, k);
    var m' := ApplyPatch(m, data, patch);
    ScopedDiffWellFormed(m, data, scope, entries, m.objs.Keys);
    ScopedDiffSound(m, data, scope, entries);
    SubsequenceIn(patch, Scoped(scope, entries));
    ScopedPatch(m, data, scope, o, entries, patch, k);
    ScopedRead(m', data, scope, o, k);
    ScopedRead(m, data, scope, o, k);
    ScopedDiffAgrees(m, data, scope, entries, k);
  }

  /**
   * Dispatching an object value without a path merges it into the object the
   * scope leads to: each of its keys (none containing a dot) takes the value's
   * entry, every other key keeps what it had.
   */
  lemma ReducedScopedMerge(m: Mem, data: Ref, scope: Option<string>, r: Ref, o: Ref, k: string)
    requires Valid(m) && data in m.objs && r in m.objs
    requires forall i :: 0 <= i < |PropsOf(m, r)| ==> '.' !in PropsOf(m, r)[i].0
    requires '.' !in k
    requires Descend(m, Obj(data), ScopeSegs(scope)) == Obj(o) && o !in Visited(m, Obj(data), ScopeSegs(scope))
    ensures Reduced(m, data, Action(scope, None, Obj(r))).Success?
    ensures var s := Reduced(m, data, Action(scope, None, Obj(r))).value.0;
            var m' := Reduced(m, data, Action(scope, None, Obj(r))).value.1;
            GetValue(m', s, ScopedKey(scope, k)) ==
              if HasKey(PropsOf(m, r), k) then Lookup(PropsOf(m, r), k) else GetValue(m, data, ScopedKey(scope, k))
  {
    var action := Action(scope, None, Obj(r));
    var entries := PropsOf(m, r);
    var patch := ScopedDiff(m, data, scope, entries);
    assert PatchOf(m, data, action) == Success(patch);
    ScopedDiffApplied(m, data, scope, entries, o, k);
    if patch != [] {
      ReducedCopyAgrees(m, data, action, ScopedKey(scope, k));
    } else {
      ScopedDiffAgrees(m, data, scope, entries, k);
    }
  }

  /** With no scope the value is merged into the top level of the state. */
  lemma ReducedMerge(m: Mem, data: Ref, r: Ref, k: string)
    requires Valid(m) && data in m.objs && r in m.objs
    requires forall i :: 0 <= i < |PropsOf(m, r)| ==> '.' !in PropsOf(m, r)[i].0
    requires '.' !in k
    ensures Reduced(m, data, Action(None, None, Obj(r))).Success?
    ensures var s := Reduced(m, data, Action(None, None, Obj(r))).value.0;
            var m' := Reduced(m, data, Action(None, None, Obj(r))).value.1;
            GetValue(m', s, k) ==
              if HasKey(PropsOf(m, r), k) then Lookup(PropsOf(m, r), k) else GetValue(m, data, k)
  {
    assert Descend(m, Obj(data), ScopeSegs(None)) == Obj(data);
    ReducedScopedMerge(m, data, None, r, data, k);
  }

  /**
   * Replacing the whole store by a shallow copy of itself gives a new state
   * object with the same entries and leaves every existing object as it was
   * (keys without dots, no `undefined` entry).
   */
  lemma ReducedWholeStoreCopy(m: Mem, data: Ref, copy: Ref)
    requires Valid(m) && data in m.objs && copy in m.objs && copy != data
    requires PropsOf(m, copy) == PropsOf(m, data) && PropsOf(m, data) != []
    requires forall i :: 0 <= i < |PropsOf(m, data)| ==>
               '.' !in PropsOf(m, data)[i].0 && PropsOf(m, data)[i].1 != Undef
    ensures Reduced(m, data, Action(None, Some(""), Obj(copy))).Success?
    ensures var s := Reduced(m, data, Action(None, Some(""), Obj(copy))).value.0;
            var m' := Reduced(m, data, Action(None, Some(""), Obj(copy))).value.1;
            && s != data && s !in m.objs
            && PropsOf(m', s) == PropsOf(m, data)
            && (forall x | x in m.objs :: PropsOf(m', x) == PropsOf(m, x))
  {
    var p := PropsOf(m, data);
    assert PatchOf(m, data, Action(None, Some(""), Obj(copy))) == Success(p);
    forall i | 0 <= i < |p|
      ensures HasKey(p, p[i].0) && Lookup(p, p[i].0) == p[i].1
    {
      HasKeyAt(p, i);
      LookupAt(p, i);
    }
    FlatPatchUnchanged(m, data, p);
    ValidAlloc(m, p);
  }
}

=== FILE: Diff.dfy ===
/**
 * The diff engine: `getPatch(data, action)` turns an action into the list of
 * dotted paths whose value actually changes.  Change is `!==` on values, so
 * objects are compared by reference and never by contents.
 */
module Diff {
  import opened Paths
  import opened Objects

  datatype Option<T> = None | Some(value: T)

  datatype Result<T> = Success(value: T) | Failure(message: string)

  /** `{ scope?, path?, value }`; a field left out or set to `undefined` is None. */
  datatype Action = Action(scope: Option<string>, path: Option<string>, value: Value)

  /** A patch: dotted path to new value (`undefined` meaning delete), in insertion order. */
  type Patch = seq<(string, Value)>

  const InvalidPathMessage: string := "getPatch: Invalid path!"

  /** A scope counts only when it is a non-empty string. */
  predicate Truthy(s: Option<string>)
  {
    s.Some? && s.value != ""
  }

  /** `scope ? `${scope}.${key}` : key`: a key of an object value, placed under the scope. */
  function ScopedKey(scope: Option<string>, key: string): string
  {
    if Truthy(scope) then scope.value + "." + key else key
  }

  /** The keys a scope descends through: none for a missing or empty scope. */
  function ScopeSegs(scope: Option<string>): seq<string>
  {
    if Truthy(scope) then Split(scope.value) else []
  }

  /** A key without a dot, placed under a scope, is one step below the scope's own keys. */
  lemma SplitScopedKey(scope: Option<string>, k: string)
    requires '.' !in k
    ensures Split(ScopedKey(scope, k)) == ScopeSegs(scope) + [k]
  {
    SplitPlain(k);
    if Truthy(scope) {
      SplitDotted(scope.value, k);
    } else {
      assert [] + [k] == [k];
    }
  }

  /** `scope && path ? `${scope}.${path}` : scope || path`, for an action that has a path. */
  function JoinedPath(scope: Option<string>, path: string): (joined: string)
    ensures joined == "" <==> !Truthy(scope) && path == ""
  {
    if Truthy(scope) && path != "" then scope.value + "." + path
    else if Truthy(scope) then scope.value
    else path
  }

  /** The changed entries of an object value: the body of the `for...in` loop, over its keys in order. */
  function ScopedDiff(m: Mem, data: Ref, scope: Option<string>, entries: Props): (patch: Patch)
    ensures |patch| <= |entries|
  {
    if entries == [] then []
    else
      var path := ScopedKey(scope, entries[0].0);
      var head := if GetValue(m, data, path) != entries[0].1 then [(path, entries[0].1)] else [];
      head + ScopedDiff(m, data, scope, entries[1..])
  }

  /** `getPatch(data, action)`. */
  function PatchOf(m: Mem, data: Ref, action: Action): (r: Result<Patch>)
    ensures action.path.None? ==> r.Success?
    ensures r.Failure? ==> r.message == InvalidPathMessage
  {
    if action.path.None? then
      match action.value
      case Obj(r) => Success(ScopedDiff(m, data, action.scope, PropsOf(m, r)))
      case _ => Success([])
    else
      var path := JoinedPath(action.scope, action.path.value);
      if path != "" then
        Success(if GetValue(m, data, path) != action.value then [(path, action.value)] else [])
      else if action.value.Obj? then
        Success(if data != action.value.ref then PropsOf(m, action.value.ref) else [])
      else
        Failure(InvalidPathMessage)
  }

  // ---------------------------------------------------------------------------
  // Reference definitions for the object-valued case

  /** Every entry of an object value, each key placed under the scope. */
  function Scoped(scope: Option<string>, entries: Props): Patch
  {
    if entries == [] then []
    else [(ScopedKey(scope, entries[0].0), entries[0].1)] + Scoped(scope, entries[1..])
  }

  /** Each entry of Scoped comes from one entry of the value, its key placed under the scope. */
  lemma {:induction false} ScopedIn(scope: Option<string>, entries: Props, e: (string, Value)) returns (i: nat)
    requires e in Scoped(scope, entries)
    ensures i < |entries| && e == (ScopedKey(scope, entries[i].0), entries[i].1)
  {
    if e == Scoped(scope, entries)[0] {
      i := 0;
    } else {
      assert Scoped(scope, entries) == [Scoped(scope, entries)[0]] + Scoped(scope, entries[1..]);
      var j := ScopedIn(scope, entries[1..], e);
      i := j + 1;
    }
  }

  /** The loop of getPatch, one key at a time: ScopedDiff of one more entry. */
  lemma {:induction false} ScopedDiffSnoc(m: Mem, data: Ref, scope: Option<string>, entries: Props, e: (string, Value))
    ensures ScopedDiff(m, data, scope, entries + [e]) ==
              ScopedDiff(m, data, scope, entries) +
              (if GetValue(m, data, ScopedKey(scope, e.0)) != e.1 then [(ScopedKey(scope, e.0), e.1)] else [])
  {
    if entries == [] {
      assert [e][1..] == [];
    } else {
      assert (entries + [e])[1..] == entries[1..] + [e];
      ScopedDiffSnoc(m, data, scope, entries[1..], e);
    }
  }

  /** The loop of getPatch after its i-th key: ScopedDiff of the first i + 1 entries. */
  lemma ScopedDiffStep(m: Mem, data: Ref, scope: Option<string>, entries: Props, i: nat)
    requires i < |entries|
    ensures ScopedDiff(m, data, scope, entries[..i + 1]) ==
              ScopedDiff(m, data, scope, entries[..i]) +
              (if GetValue(m, data, ScopedKey(scope, entries[i].0)) != entries[i].1
               then [(ScopedKey(scope, entries[i].0), entries[i].1)] else [])
  {
    assert entries[..i + 1] == entries[..i] + [entries[i]];
    ScopedDiffSnoc(m, data, scope, entries[..i], entries[i]);
  }

  /** a is b with some entries left out, the rest in the same order. */
  predicate IsSubsequence(a: Patch, b: Patch)
  {
    a == [] || (b != [] && ((a[0] == b[0] && IsSubsequence(a[1..], b[1..])) || IsSubsequence(a, b[1..])))
  }

  lemma {:induction false} SubsequenceIn(a: Patch, b: Patch)
    requires IsSubsequence(a, b)
    ensures forall e :: e in a ==> e in b
  {
    if a != [] {
      assert a == [a[0]] + a[1..] && b == [b[0]] + b[1..];
      if a[0] == b[0] && IsSubsequence(a[1..], b[1..]) {
        SubsequenceIn(a[1..], b[1..]);
      } else {
        SubsequenceIn(a, b[1..]);
      }
    }
  }

  // ---------------------------------------------------------------------------
  // Properties of getPatch

  /** A scope names a subtree: a path written under it is resolved inside that subtree. */
  lemma ScopedLookup(m: Mem, data: Ref, scope: string, path: string)
    ensures GetValue(m, data, scope + "." + path) == Descend(m, GetValue(m, data, scope), Split(path))
  {
    SplitDotted(scope, path);
    DescendAppend(m, Obj(data), Split(scope), Split(path));
  }

  /** When the scope leads to an object, a key without a dot under the scope is that object's own property. */
  lemma ScopedRead(m: Mem, data: Ref, scope: Option<string>, o: Ref, k: string)
    requires Descend(m, Obj(data), ScopeSegs(scope)) == Obj(o) && '.' !in k
    ensures GetValue(m, data, ScopedKey(scope, k)) == Lookup(PropsOf(m, o), k)
  {
    SplitScopedKey(scope, k);
    DescendAppend(m, Obj(data), ScopeSegs(scope), [k]);
    assert Descend(m, Obj(o), [k]) == Descend(m, Lookup(PropsOf(m, o), k), []);
  }

  /**
   * An action with a path that joins to a non-empty target yields at most one
   * entry, keyed by the joined path, and yields it exactly when the store's
   * value there is not the action's value.
   */
  lemma ExplicitPath(m: Mem, data: Ref, action: Action)
    requires action.path.Some? && JoinedPath(action.scope, action.path.value) != ""
    ensures var joined := JoinedPath(action.scope, action.path.value);
      && PatchOf(m, data, action).Success?
      && |PatchOf(m, data, action).value| <= 1
      && (PatchOf(m, data, action).value == [] <==> GetValue(m, data, joined) == action.value)
      && (PatchOf(m, data, action).value != [] ==> PatchOf(m, data, action).value[0] == (joined, action.value))
  {
  }

  /** Asking to set a path to the value it already holds is a no-op. */
  lemma Unchanged(m: Mem, data: Ref, path: string)
    requires path != ""
    ensures PatchOf(m, data, Action(None, Some(path), GetValue(m, data, path))) == Success([])
  {
  }

  /** Without a path, a value that is not an object (undefined, boolean, number, ...) changes nothing. */
  lemma NoPathNonObject(m: Mem, data: Ref, action: Action)
    requires action.path.None? && !action.value.Obj?
    ensures PatchOf(m, data, action) == Success([])
  {
  }

  lemma {:induction false} ScopedDiffSound(m: Mem, data: Ref, scope: Option<string>, entries: Props)
    ensures IsSubsequence(ScopedDiff(m, data, scope, entries), Scoped(scope, entries))
    ensures forall e :: e in ScopedDiff(m, data, scope, entries) ==> GetValue(m, data, e.0) != e.1
  {
    if entries != [] {
      ScopedDiffSound(m, data, scope, entries[1..]);
      var rest := ScopedDiff(m, data, scope, entries[1..]);
      var all := Scoped(scope, entries);
      assert all[1..] == Scoped(scope, entries[1..]);
      var res := ScopedDiff(m, data, scope, entries);
      if res == rest {
        if rest != [] {
          assert IsSubsequence(rest, all[1..]);
        }
      } else {
        assert res == [all[0]] + rest;
        assert res[1..] == rest;
      }
    }
  }

  lemma {:induction false} ScopedDiffComplete(m: Mem, data: Ref, scope: Option<string>, entries: Props)
    ensures forall e :: e in Scoped(scope, entries) && GetValue(m, data, e.0) != e.1 ==>
                        e in ScopedDiff(m, data, scope, entries)
  {
    if entries != [] {
      ScopedDiffComplete(m, data, scope, entries[1..]);
      assert Scoped(scope, entries) == [Scoped(scope, entries)[0]] + Scoped(scope, entries[1..]);
    }
  }

  /**
   * Without a path, an object value yields, in the order of its keys, exactly
   * those entries `scope.key -> value[key]` (or `key -> value[key]` when the
   * scope is empty or missing) whose target differs from the store; a dotted
   * key is kept as it is, and unchanged keys are left out.
   */
  lemma NoPathObject(m: Mem, data: Ref, action: Action)
    requires action.path.None? && action.value.Obj?
    ensures PatchOf(m, data, action).Success?
    ensures var p := PatchOf(m, data, action).value;
            var all := Scoped(action.scope, PropsOf(m, action.value.ref));
      && IsSubsequence(p, all)
      && (forall e :: e in p ==> e in all && GetValue(m, data, e.0) != e.1)
      && (forall e :: e in all && GetValue(m, data, e.0) != e.1 ==> e in p)
  {
    var entries := PropsOf(m, action.value.ref);
    ScopedDiffSound(m, data, action.scope, entries);
    ScopedDiffComplete(m, data, action.scope, entries);
    SubsequenceIn(ScopedDiff(m, data, action.scope, entries), Scoped(action.scope, entries));
  }

  /**
   * An empty joined path with an object value replaces the whole store: no
   * patch when the value is the store itself, otherwise the value's own
   * entries, every one of them, changed or not.
   */
  lemma WholeStore(m: Mem, data: Ref, action: Action)
    requires action.path.Some? && JoinedPath(action.scope, action.path.value) == "" && action.value.Obj?
    ensures action.value.ref == data ==> PatchOf(m, data, action) == Success([])
    ensures action.value.ref != data ==> PatchOf(m, data, action) == Success(PropsOf(m, action.value.ref))
  {
  }

  /**
   * Identity, not structure: a shallow copy of the store given as a whole-store
   * value is emitted in full, though each of its entries already holds in the store.
   */
  lemma WholeStoreCopy(m: Mem, data: Ref, copy: Ref)
    requires Valid(m) && data in m.objs && copy != data
    requires PropsOf(m, copy) == PropsOf(m, data)
    requires forall i :: 0 <= i < |PropsOf(m, data)| ==> '.' !in PropsOf(m, data)[i].0
    ensures PatchOf(m, data, Action(None, Some(""), Obj(copy))) == Success(PropsOf(m, data))
    ensures forall i :: 0 <= i < |PropsOf(m, data)| ==>
              GetValue(m, data, PropsOf(m, data)[i].0) == PropsOf(m, data)[i].1
  {
    var p := PropsOf(m, data);
    forall i | 0 <= i < |p| ensures GetValue(m, data, p[i].0) == p[i].1 {
      GetPlain(m, data, p[i].0);
      LookupAt(p, i);
    }
  }

  /** Identity, not structure: another object in place of the stored one is a change, whatever it holds. */
  lemma IdentityNotStructure(m: Mem, data: Ref, path: string, other: Ref)
    requires path != "" && GetValue(m, data, path).Obj? && GetValue(m, data, path).ref != other
    ensures PatchOf(m, data, Action(None, Some(path), Obj(other))) == Success([(path, Obj(other))])
  {
  }

  /** The one failure: a path that joins to "" with a value that is not an object. */
  lemma OnlyFailure(m: Mem, data: Ref, action: Action)
    ensures PatchOf(m, data, action).Failure? <==>
              action.path == Some("") && !Truthy(action.scope) && !action.value.Obj?
    ensures PatchOf(m, data, action).Failure? ==> PatchOf(m, data, action).message == InvalidPathMessage
  {
  }

  /**
   * Minimality: outside the whole-store case every entry of a patch changes
   * the store (the whole-store case emits the value's entries as they are).
   */
  lemma Minimal(m: Mem, data: Ref, action: Action)
    requires !(action.path.Some? && JoinedPath(action.scope, action.path.value) == "")
    ensures PatchOf(m, data, action).Success?
    ensures forall e :: e in PatchOf(m, data, action).value ==> GetValue(m, data, e.0) != e.1
  {
    if action.path.None? && action.value.Obj? {
      NoPathObject(m, data, action);
    }
  }

  // ---------------------------------------------------------------------------
  // Well-formedness of patches

  lemma ScopedKeyInjective(scope: Option<string>, a: string, b: string)
    requires ScopedKey(scope, a) == ScopedKey(scope, b)
    ensures a == b
  {
    if Truthy(scope) {
      var s := scope.value;
      assert (s + "." + a)[|s| + 1..] == a;
      assert (s + "." + b)[|s| + 1..] == b;
    }
  }

  lemma {:induction false} ScopedDiffKeys(m: Mem, data: Ref, scope: Option<string>, entries: Props, k: string)
    requires HasKey(ScopedDiff(m, data, scope, entries), ScopedKey(scope, k))
    ensures HasKey(entries, k)
  {
    var res := ScopedDiff(m, data, scope, entries);
    var rest := ScopedDiff(m, data, scope, entries[1..]);
    if res != rest && res[0].0 == ScopedKey(scope, k) {
      ScopedKeyInjective(scope, entries[0].0, k);
    } else {
      if res != rest {
        assert res[1..] == rest;
      }
      ScopedDiffKeys(m, data, scope, entries[1..], k);
    }
  }

  lemma {:induction false} ScopedDiffWellFormed(m: Mem, data: Ref, scope: Option<string>, entries: Props, refs: set<Ref>)
    requires KeysDistinct(entries) && Within(entries, refs)
    ensures KeysDistinct(ScopedDiff(m, data, scope, entries)) && Within(ScopedDiff(m, data, scope, entries), refs)
  {
    if entries != [] {
      ScopedDiffWellFormed(m, data, scope, entries[1..], refs);
      var res := ScopedDiff(m, data, scope, entries);
      var rest := ScopedDiff(m, data, scope, entries[1..]);
      if res != rest {
        assert res[1..] == rest;
        if HasKey(rest, ScopedKey(scope, entries[0].0)) {
          ScopedDiffKeys(m, data, scope, entries[1..], entries[0].0);
        }
      }
    }
  }

  /**
   * A patch never names a path twice, and in a well-formed heap it only
   * refers to live objects (so applying it keeps the heap well formed).
   */
  lemma PatchWellFormed(m: Mem, data: Ref, action: Action)
    requires Valid(m) && ValueIn(m.objs.Keys, action.value)
    requires PatchOf(m, data, action).Success?
    ensures KeysDistinct(PatchOf(m, data, action).value)
    ensures Within(PatchOf(m, data, action).value, m.objs.Keys)
  {
    if action.value.Obj? {
      var entries := PropsOf(m, action.value.ref);
      if action.path.None? {
        ScopedDiffWellFormed(m, data, action.scope, entries, m.objs.Keys);
      }
    }
  }
}

=== FILE: Objects.dfy ===
/**
 * The JavaScript heap the store lives in.  A store value is `undefined`, a
 * primitive, or a reference to an object; an object is an ordered list of own
 * properties (insertion order, as `for...in` and `Object.entries` see it).
 * `!==` is equality of `Value`s: primitives compare by value and objects by
 * reference.  The dotted-path helpers the store calls (`getValue`, lodash
 * `set` and `unset`) are defined here as Descend, SetIn and UnsetIn.
 */
module Objects {
  import opened Paths

  type Ref = nat

  /** Leaves of the store.  A function value is an opaque leaf with an identity. */
  datatype Prim = Bool(b: bool) | Num(n: int) | Str(s: string) | Func(id: nat)

  datatype Value = Undef | Prim(p: Prim) | Obj(ref: Ref)

  /** Own properties of one object, in insertion order. */
  type Props = seq<(string, Value)>

  /** The heap: every live object's properties, and the next unused reference. */
  datatype Mem = Mem(objs: map<Ref, Props>, next: Ref)

  // ---------------------------------------------------------------------------
  // Properties of one object

  /** `obj[k]`: the value of key k, `undefined` when it is absent. */
  function Lookup(p: Props, k: string): (v: Value)
    ensures !HasKey(p, k) ==> v == Undef
  {
    if p == [] then Undef else if p[0].0 == k then p[0].1 else Lookup(p[1..], k)
  }

  /** `obj[k] = v`: an existing key keeps its place, a new key goes last. */
  function Put(p: Props, k: string, v: Value): (r: Props)
    ensures HasKey(p, k) ==> |r| == |p| && forall i :: 0 <= i < |p| ==> r[i].0 == p[i].0
    ensures !HasKey(p, k) ==> r == p + [(k, v)]
  {
    if p == [] then [(k, v)]
    else if p[0].0 == k then [(k, v)] + p[1..]
    else [p[0]] + Put(p[1..], k, v)
  }

  /** `delete obj[k]`. */
  function Delete(p: Props, k: string): (r: Props)
    ensures !HasKey(r, k) && |r| <= |p|
  {
    if p == [] then []
    else if p[0].0 == k then Delete(p[1..], k)
    else [p[0]] + Delete(p[1..], k)
  }

  predicate HasKey(p: Props, k: string)
  {
    p != [] && (p[0].0 == k || HasKey(p[1..], k))
  }

  /** An object has each key at most once. */
  predicate KeysDistinct(p: Props)
  {
    p != [] ==> !HasKey(p[1..], p[0].0) && KeysDistinct(p[1..])
  }

  predicate ValueIn(refs: set<Ref>, v: Value)
  {
    v.Obj? ==> v.ref in refs
  }

  /** Every object the properties refer to is one of refs. */
  predicate Within(p: Props, refs: set<Ref>)
  {
    p != [] ==> ValueIn(refs, p[0].1) && Within(p[1..], refs)
  }

  lemma {:induction false} LookupPut(p: Props, k: string, v: Value, j: string)
    ensures Lookup(Put(p, k, v), j) == if j == k then v else Lookup(p, j)
  {
    if p != [] && p[0].0 != k {
      LookupPut(p[1..], k, v, j);
    }
  }

  /** Writing back the value a key already holds changes nothing. */
  lemma {:induction false} PutSame(p: Props, k: string)
    requires HasKey(p, k)
    ensures Put(p, k, Lookup(p, k)) == p
  {
    if p[0].0 != k {
      PutSame(p[1..], k);
    }
  }

  lemma {:induction false} LookupDelete(p: Props, k: string, j: string)
    ensures Lookup(Delete(p, k), j) == if j == k then Undef else Lookup(p, j)
  {
    if p != [] {
      LookupDelete(p[1..], k, j);
    }
  }

  lemma {:induction false} HasKeyPut(p: Props, k: string, v: Value, j: string)
    ensures HasKey(Put(p, k, v), j) <==> j == k || HasKey(p, j)
  {
    if p != [] && p[0].0 != k {
      HasKeyPut(p[1..], k, v, j);
    }
  }

  lemma {:induction false} HasKeyDelete(p: Props, k: string, j: string)
    ensures HasKey(Delete(p, k), j) <==> j != k && HasKey(p, j)
  {
    if p != [] {
      HasKeyDelete(p[1..], k, j);
    }
  }

  lemma {:induction false} PutDistinct(p: Props, k: string, v: Value)
    requires KeysDistinct(p)
    ensures KeysDistinct(Put(p, k, v))
  {
    if p != [] && p[0].0 != k {
      PutDistinct(p[1..], k, v);
      HasKeyPut(p[1..], k, v, p[0].0);
    }
  }

  lemma {:induction false} DeleteDistinct(p: Props, k: string)
    requires KeysDistinct(p)
    ensures KeysDistinct(Delete(p, k))
  {
    if p != [] {
      DeleteDistinct(p[1..], k);
      HasKeyDelete(p[1..], k, p[0].0);
    }
  }

  /** Deleting a key the object does not have changes nothing. */
  lemma {:induction false} DeleteAbsent(p: Props, k: string)
    requires !HasKey(p, k)
    ensures Delete(p, k) == p
  {
    if p != [] {
      DeleteAbsent(p[1..], k);
    }
  }

  lemma {:induction false} WithinMono(p: Props, a: set<Ref>, b: set<Ref>)
    requires Within(p, a) && a <= b
    ensures Within(p, b)
  {
    if p != [] {
      WithinMono(p[1..], a, b);
    }
  }

  lemma {:induction false} PutWithin(p: Props, k: string, v: Value, refs: set<Ref>)
    requires Within(p, refs) && ValueIn(refs, v)
    ensures Within(Put(p, k, v), refs)
  {
    if p != [] && p[0].0 != k {
      PutWithin(p[1..], k, v, refs);
    }
  }

  lemma {:induction false} DeleteWithin(p: Props, k: string, refs: set<Ref>)
    requires Within(p, refs)
    ensures Within(Delete(p, k), refs)
  {
    if p != [] {
      DeleteWithin(p[1..], k, refs);
    }
  }

  lemma {:induction false} WithinAppend(a: Props, b: Props, refs: set<Ref>)
    ensures Within(a + b, refs) <==> Within(a, refs) && Within(b, refs)
  {
    if a != [] {
      assert (a + b)[0] == a[0] && (a + b)[1..] == a[1..] + b;
      WithinAppend(a[1..], b, refs);
    } else {
      assert a + b == b;
    }
  }

  lemma {:induction false} LookupWithin(p: Props, k: string, refs: set<Ref>)
    requires Within(p, refs)
    ensures ValueIn(refs, Lookup(p, k))
  {
    if p != [] && p[0].0 != k {
      LookupWithin(p[1..], k, refs);
    }
  }

  /** In an object with distinct keys, each listed property is what Lookup finds. */
  lemma {:induction false} LookupAt(p: Props, i: nat)
    requires KeysDistinct(p) && i < |p|
    ensures Lookup(p, p[i].0) == p[i].1
  {
    if i > 0 {
      LookupAt(p[1..], i - 1);
      assert HasKey(p[1..], p[i].0) by { HasKeyAt(p[1..], i - 1); }
    }
  }

  lemma {:induction false} HasKeyAt(p: Props, i: nat)
    requires i < |p|
    ensures HasKey(p, p[i].0)
  {
    if i > 0 {
      HasKeyAt(p[1..], i - 1);
    }
  }

  // ---------------------------------------------------------------------------
  // The heap

  function PropsOf(m: Mem, r: Ref): Props
  {
    if r in m.objs then m.objs[r] else []
  }

  /** The heap after object r's properties become p. */
  function Update(m: Mem, r: Ref, p: Props): Mem
  {
    m.(objs := m.objs[r := p])
  }

  /** The heap after allocating a new object (at reference m.next) with properties p. */
  function Alloc(m: Mem, p: Props): Mem
  {
    Mem(m.objs[m.next := p], m.next + 1)
  }

  /**
   * A well-formed heap: references below `next` are the allocated ones, every
   * reference stored in an object names a live object, and no object repeats a key.
   */
  ghost predicate Valid(m: Mem)
  {
    forall r | r in m.objs :: r < m.next && Within(m.objs[r], m.objs.Keys) && KeysDistinct(m.objs[r])
  }

  lemma ValidUpdate(m: Mem, r: Ref, p: Props)
    requires Valid(m) && r in m.objs
    requires Within(p, m.objs.Keys) && KeysDistinct(p)
    ensures Valid(Update(m, r, p)) && Update(m, r, p).objs.Keys == m.objs.Keys
  {
    assert m.objs[r := p].Keys == m.objs.Keys;
  }

  lemma ValidAlloc(m: Mem, p: Props)
    requires Valid(m)
    requires Within(p, m.objs.Keys) && KeysDistinct(p)
    ensures m.next !in m.objs
    ensures Valid(Alloc(m, p)) && Alloc(m, p).objs.Keys == m.objs.Keys + {m.next}
  {
    var m' := Alloc(m, p);
    assert m'.objs.Keys == m.objs.Keys + {m.next};
    forall r | r in m'.objs
      ensures r < m'.next && Within(m'.objs[r], m'.objs.Keys) && KeysDistinct(m'.objs[r])
    {
      if r == m.next {
        WithinMono(p, m.objs.Keys, m'.objs.Keys);
      } else {
        WithinMono(m.objs[r], m.objs.Keys, m'.objs.Keys);
      }
    }
  }

  // ---------------------------------------------------------------------------
  // Reading a dotted path: getValue

  /**
   * Descending from v through the given keys, one object at a time; any step
   * that does not start from an object yields `undefined`.
   */
  function Descend(m: Mem, v: Value, segs: seq<string>): (r: Value)
    ensures r != Undef && segs != [] ==> |Visited(m, v, segs)| == |segs|
    decreases |segs|
  {
    if segs == [] then v
    else match v
      case Obj(q) => Descend(m, Lookup(PropsOf(m, q), segs[0]), segs[1..])
      case _ => Undef
  }

  /** `getValue(data, path)`: the value at a dotted path below the object data. */
  function GetValue(m: Mem, data: Ref, path: string): (r: Value)
    ensures r != Undef ==> |Visited(m, Obj(data), Split(path))| == |Split(path)|
  {
    Descend(m, Obj(data), Split(path))
  }

  /** A path without a dot reads the data's own property. */
  lemma GetPlain(m: Mem, data: Ref, k: string)
    requires '.' !in k
    ensures GetValue(m, data, k) == Lookup(PropsOf(m, data), k)
  {
    SplitPlain(k);
    assert Descend(m, Obj(data), [k]) == Descend(m, Lookup(PropsOf(m, data), k), []);
  }

  /** The objects in which Descend looks a key up, in order. */
  function Visited(m: Mem, v: Value, segs: seq<string>): seq<Ref>
    decreases |segs|
  {
    if segs == [] then []
    else match v
      case Obj(q) => [q] + Visited(m, Lookup(PropsOf(m, q), segs[0]), segs[1..])
      case _ => []
  }

  /** The lookups Descend makes: each object it reads, with the key it reads there. */
  function Reads(m: Mem, v: Value, segs: seq<string>): seq<(Ref, string)>
    decreases |segs|
  {
    if segs == [] then []
    else match v
      case Obj(q) => [(q, segs[0])] + Reads(m, Lookup(PropsOf(m, q), segs[0]), segs[1..])
      case _ => []
  }

  /** No object is met twice (a path that does not run round a cycle). */
  predicate NoRepeat(s: seq<Ref>)
  {
    forall i, j | 0 <= i < j < |s| :: s[i] != s[j]
  }

  lemma NoRepeatCons(r: Ref, s: seq<Ref>)
    requires NoRepeat([r] + s)
    ensures r !in s && NoRepeat(s)
  {
    var t := [r] + s;
    assert forall i, j | 0 <= i < j < |t| :: t[i] != t[j];
    forall k | 0 <= k < |s| ensures s[k] != r {
      assert t[0] == r && t[k + 1] == s[k];
    }
    forall i, j | 0 <= i < j < |s| ensures s[i] != s[j] {
      assert t[i + 1] == s[i] && t[j + 1] == s[j];
    }
  }

  lemma NoRepeatSnoc(s: seq<Ref>, r: Ref)
    requires NoRepeat(s + [r])
    ensures r !in s
  {
    var t := s + [r];
    assert forall i, j | 0 <= i < j < |t| :: t[i] != t[j];
    forall k | 0 <= k < |s| ensures s[k] != r {
      assert t[k] == s[k] && t[|s|] == r;
    }
  }

  /** Descending along a then b is descending along a, then along b from there. */
  lemma {:induction false} DescendAppend(m: Mem, v: Value, a: seq<string>, b: seq<string>)
    ensures Descend(m, v, a + b) == Descend(m, Descend(m, v, a), b)
    ensures Visited(m, v, a + b) == Visited(m, v, a) + Visited(m, Descend(m, v, a), b)
    decreases |a|
  {
    if a == [] {
      assert a + b == b;
    } else {
      assert (a + b)[0] == a[0] && (a + b)[1..] == a[1..] + b;
      match v
      case Obj(q) =>
        DescendAppend(m, Lookup(PropsOf(m, q), a[0]), a[1..], b);
      case _ =>
        assert Descend(m, Undef, b) == Undef;
        assert Visited(m, Undef, b) == [];
    }
  }

  /** A descent reads only the objects it visits. */
  lemma {:induction false} DescendUnchanged(m: Mem, m': Mem, v: Value, segs: seq<string>)
    requires forall x :: x in Visited(m, v, segs) ==> PropsOf(m', x) == PropsOf(m, x)
    ensures Descend(m', v, segs) == Descend(m, v, segs)
    ensures Visited(m', v, segs) == Visited(m, v, segs)
    decreases |segs|
  {
    if segs != [] && v.Obj? {
      assert v.ref in Visited(m, v, segs);
      DescendUnchanged(m, m', Lookup(PropsOf(m, v.ref), segs[0]), segs[1..]);
    }
  }

  /** A descent depends only on the lookups it makes. */
  lemma {:induction false} DescendKeeps(m: Mem, m': Mem, v: Value, segs: seq<string>)
    requires forall p | p in Reads(m, v, segs) :: Lookup(PropsOf(m', p.0), p.1) == Lookup(PropsOf(m, p.0), p.1)
    ensures Descend(m', v, segs) == Descend(m, v, segs)
    ensures Reads(m', v, segs) == Reads(m, v, segs)
    decreases |segs|
  {
    if segs != [] && v.Obj? {
      assert (v.ref, segs[0]) in Reads(m, v, segs);
      DescendKeeps(m, m', Lookup(PropsOf(m, v.ref), segs[0]), segs[1..]);
    }
  }

  /** In a valid heap a descent from a live value stays among live objects. */
  lemma {:induction false} DescendWithin(m: Mem, v: Value, segs: seq<string>)
    requires Valid(m) && ValueIn(m.objs.Keys, v)
    ensures ValueIn(m.objs.Keys, Descend(m, v, segs))
    ensures forall x :: x in Visited(m, v, segs) ==> x in m.objs
    ensures forall p :: p in Reads(m, v, segs) ==> p.0 in m.objs
    decreases |segs|
  {
    if segs != [] && v.Obj? {
      LookupWithin(m.objs[v.ref], segs[0], m.objs.Keys);
      DescendWithin(m, Lookup(PropsOf(m, v.ref), segs[0]), segs[1..]);
    }
  }

  // ---------------------------------------------------------------------------
  // Writing a dotted path: lodash `set`

  /**
   * `set(obj, segs, v)` below object r: every step but the last reuses an
   * object found there and otherwise puts a new empty object in its place;
   * the last step assigns v.
   */
  function SetIn(m: Mem, r: Ref, segs: seq<string>, v: Value): (m': Mem)
    requires |segs| >= 1
    ensures m.objs.Keys <= m'.objs.Keys && m.next <= m'.next
    decreases |segs|
  {
    var props := PropsOf(m, r);
    if |segs| == 1 then Update(m, r, Put(props, segs[0], v))
    else match Lookup(props, segs[0])
      case Obj(q) => SetIn(m, q, segs[1..], v)
      case _ =>
        var n := m.next;
        SetIn(Update(Alloc(m, []), r, Put(props, segs[0], Obj(n))), n, segs[1..], v)
  }

  /**
   * The one assignment SetIn makes to an object that already exists: the
   * object, the key, and the value assigned (v itself, or the first new object
   * when the path leaves the existing objects early).
   */
  function Target(m: Mem, r: Ref, segs: seq<string>, v: Value): (Ref, string, Value)
    requires |segs| >= 1
    decreases |segs|
  {
    if |segs| == 1 then (r, segs[0], v)
    else match Lookup(PropsOf(m, r), segs[0])
      case Obj(q) => Target(m, q, segs[1..], v)
      case _ => (r, segs[0], Obj(m.next))
  }

  /** The step of a set that meets a missing (or non-object) intermediate: a fresh `{}` is hung there. */
  lemma FreshStep(m: Mem, r: Ref, k: string)
    requires Valid(m) && r in m.objs
    ensures var n := m.next; var m1 := Update(Alloc(m, []), r, Put(PropsOf(m, r), k, Obj(n)));
      && n !in m.objs && Valid(m1) && m1.objs.Keys == m.objs.Keys + {n} && m1.next == n + 1
      && PropsOf(m1, n) == [] && Lookup(PropsOf(m1, r), k) == Obj(n)
      && m1.objs[r] == Put(m.objs[r], k, Obj(n))
      && (forall x | x in m.objs && x != r :: m1.objs[x] == m.objs[x])
  {
    var props, n := PropsOf(m, r), m.next;
    ValidAlloc(m, []);
    var m0 := Alloc(m, []);
    WithinMono(props, m.objs.Keys, m0.objs.Keys);
    PutWithin(props, k, Obj(n), m0.objs.Keys);
    PutDistinct(props, k, Obj(n));
    ValidUpdate(m0, r, Put(props, k, Obj(n)));
    LookupPut(props, k, Obj(n), k);
  }

  /** A set keeps the heap well formed. */
  lemma {:induction false} SetValid(m: Mem, r: Ref, segs: seq<string>, v: Value)
    requires Valid(m) && r in m.objs && ValueIn(m.objs.Keys, v) && |segs| >= 1
    ensures Valid(SetIn(m, r, segs, v))
    decreases |segs|
  {
    var props := PropsOf(m, r);
    if |segs| == 1 {
      PutWithin(props, segs[0], v, m.objs.Keys);
      PutDistinct(props, segs[0], v);
      ValidUpdate(m, r, Put(props, segs[0], v));
    } else {
      LookupWithin(props, segs[0], m.objs.Keys);
      match Lookup(props, segs[0])
      case Obj(q) =>
        SetValid(m, q, segs[1..], v);
      case _ =>
        FreshStep(m, r, segs[0]);
        SetValid(Update(Alloc(m, []), r, Put(props, segs[0], Obj(m.next))), m.next, segs[1..], v);
    }
  }

  /**
   * What a set changes: the assignment named by Target lands on an object the
   * path visits.
   */
  lemma {:induction false} SetEffect(m: Mem, r: Ref, segs: seq<string>, v: Value)
    requires Valid(m) && r in m.objs && ValueIn(m.objs.Keys, v) && |segs| >= 1
    ensures var m' := SetIn(m, r, segs, v); var t := Target(m, r, segs, v);
      && t.0 in m.objs && t.0 in Visited(m, Obj(r), segs)
      && (t.2 == v || t.2 == Obj(m.next))
      && PropsOf(m', t.0) == Put(PropsOf(m, t.0), t.1, t.2)
    decreases |segs|
  {
    var props := PropsOf(m, r);
    if |segs| > 1 {
      LookupWithin(props, segs[0], m.objs.Keys);
      match Lookup(props, segs[0])
      case Obj(q) =>
        SetEffect(m, q, segs[1..], v);
      case _ =>
        FreshStep(m, r, segs[0]);
        var m1 := Update(Alloc(m, []), r, Put(props, segs[0], Obj(m.next)));
        assert Target(m1, m.next, segs[1..], v).0 == m.next;
        SetFrame(m1, m.next, segs[1..], v);
    }
  }

  /** What a set leaves alone: every existing object other than the one Target names. */
  lemma {:induction false} SetFrame(m: Mem, r: Ref, segs: seq<string>, v: Value)
    requires Valid(m) && r in m.objs && ValueIn(m.objs.Keys, v) && |segs| >= 1
    ensures forall x | x in m.objs && x != Target(m, r, segs, v).0 ::
              PropsOf(SetIn(m, r, segs, v), x) == PropsOf(m, x)
    decreases |segs|
  {
    var props := PropsOf(m, r);
    if |segs| > 1 {
      LookupWithin(props, segs[0], m.objs.Keys);
      match Lookup(props, segs[0])
      case Obj(q) =>
        SetFrame(m, q, segs[1..], v);
      case _ =>
        FreshStep(m, r, segs[0]);
        var m1 := Update(Alloc(m, []), r, Put(props, segs[0], Obj(m.next)));
        assert Target(m1, m.next, segs[1..], v).0 == m.next;
        SetFrame(m1, m.next, segs[1..], v);
    }
  }

  /** After a set, the path reads back the value set (when the path does not run round a cycle). */
  lemma {:induction false} GetAfterSet(m: Mem, r: Ref, segs: seq<string>, v: Value)
    requires Valid(m) && r in m.objs && ValueIn(m.objs.Keys, v) && |segs| >= 1
    requires NoRepeat(Visited(m, Obj(r), segs))
    ensures Descend(SetIn(m, r, segs, v), Obj(r), segs) == v
    decreases |segs|
  {
    var props := PropsOf(m, r);
    if |segs| == 1 {
      LookupPut(props, segs[0], v, segs[0]);
    } else {
      LookupWithin(props, segs[0], m.objs.Keys);
      match Lookup(props, segs[0])
      case Obj(q) =>
        assert Visited(m, Obj(r), segs) == [r] + Visited(m, Obj(q), segs[1..]);
        NoRepeatCons(r, Visited(m, Obj(q), segs[1..]));
        GetAfterSet(m, q, segs[1..], v);
        SetEffect(m, q, segs[1..], v);
        SetFrame(m, q, segs[1..], v);
      case _ =>
        FreshStep(m, r, segs[0]);
        var n := m.next;
        var m1 := Update(Alloc(m, []), r, Put(props, segs[0], Obj(n)));
        assert Visited(m1, Obj(n), segs[1..]) == [n];
        GetAfterSet(m1, n, segs[1..], v);
        assert Target(m1, n, segs[1..], v).0 == n;
        SetFrame(m1, n, segs[1..], v);
        var m' := SetIn(m1, n, segs[1..], v);
        assert PropsOf(m', r) == PropsOf(m1, r);
        assert Descend(m', Obj(r), segs) == Descend(m', Obj(n), segs[1..]);
    }
  }

  /**
   * A set leaves alone every path that never looks up the key it assigns in the
   * object it assigns into (other keys of that object, and every other object,
   * may be read freely).
   */
  lemma SetLeavesOtherPaths(m: Mem, r: Ref, segs: seq<string>, v: Value, w: Value, other: seq<string>)
    requires Valid(m) && r in m.objs && ValueIn(m.objs.Keys, v) && |segs| >= 1 && ValueIn(m.objs.Keys, w)
    requires (Target(m, r, segs, v).0, Target(m, r, segs, v).1) !in Reads(m, w, other)
    ensures Descend(SetIn(m, r, segs, v), w, other) == Descend(m, w, other)
    ensures Reads(SetIn(m, r, segs, v), w, other) == Reads(m, w, other)
  {
    var t := Target(m, r, segs, v);
    var m' := SetIn(m, r, segs, v);
    SetEffect(m, r, segs, v);
    SetFrame(m, r, segs, v);
    DescendWithin(m, w, other);
    forall p | p in Reads(m, w, other)
      ensures Lookup(PropsOf(m', p.0), p.1) == Lookup(PropsOf(m, p.0), p.1)
    {
      if p.0 == t.0 {
        LookupPut(PropsOf(m, t.0), t.1, t.2, p.1);
      }
    }
    DescendKeeps(m, m', w, other);
  }

  /** Setting a key of an object already found along a path is a plain assignment to that object. */
  lemma {:induction false} SetBelow(m: Mem, r: Ref, a: seq<string>, o: Ref, k: string, v: Value)
    requires Descend(m, Obj(r), a) == Obj(o)
    ensures SetIn(m, r, a + [k], v) == Update(m, o, Put(PropsOf(m, o), k, v))
    decreases |a|
  {
    if a != [] {
      assert (a + [k])[0] == a[0] && (a + [k])[1..] == a[1..] + [k];
      assert Lookup(PropsOf(m, r), a[0]).Obj?;
      SetBelow(m, Lookup(PropsOf(m, r), a[0]).ref, a[1..], o, k, v);
    } else {
      assert a + [k] == [k];
    }
  }

  // ---------------------------------------------------------------------------
  // Deleting a dotted path: lodash `unset`

  /** The value holding the last key of the path (the path without its last segment). */
  function Parent(m: Mem, r: Ref, segs: seq<string>): Value
    requires |segs| >= 1
  {
    Descend(m, Obj(r), segs[..|segs| - 1])
  }

  /** `unset(obj, segs)` below object r: delete the last key from its parent, if the parent is an object. */
  function UnsetIn(m: Mem, r: Ref, segs: seq<string>): (m': Mem)
    requires |segs| >= 1
    ensures m'.next == m.next && m.objs.Keys <= m'.objs.Keys
    ensures Parent(m, r, segs).Obj? ==> !HasKey(PropsOf(m', Parent(m, r, segs).ref), segs[|segs| - 1])
  {
    match Parent(m, r, segs)
    case Obj(q) => Update(m, q, Delete(PropsOf(m, q), segs[|segs| - 1]))
    case _ => m
  }

  /**
   * What an unset changes: the heap stays valid with the same objects, and at
   * most the parent object loses the last key; all other objects are untouched.
   */
  lemma UnsetEffect(m: Mem, r: Ref, segs: seq<string>)
    requires Valid(m) && r in m.objs && |segs| >= 1
    ensures var m' := UnsetIn(m, r, segs);
      && Valid(m') && m'.objs.Keys == m.objs.Keys && m'.next == m.next
      && (!Parent(m, r, segs).Obj? ==> m' == m)
      && (Parent(m, r, segs).Obj? ==>
            var q := Parent(m, r, segs).ref;
            && q in m.objs && q in Visited(m, Obj(r), segs)
            && m'.objs[q] == Delete(m.objs[q], segs[|segs| - 1])
            && (forall x | x in m.objs && x != q :: m'.objs[x] == m.objs[x]))
  {
    var pre, last := segs[..|segs| - 1], segs[|segs| - 1];
    assert segs == pre + [last];
    DescendAppend(m, Obj(r), pre, [last]);
    DescendWithin(m, Obj(r), pre);
    if Parent(m, r, segs).Obj? {
      var q := Parent(m, r, segs).ref;
      assert Visited(m, Obj(q), [last]) == [q];
      DeleteWithin(m.objs[q], last, m.objs.Keys);
      DeleteDistinct(m.objs[q], last);
      ValidUpdate(m, q, Delete(m.objs[q], last));
    }
  }

  /** Deleting one key makes any descent either read what it read before, or `undefined`. */
  lemma {:induction false} DescendAfterDelete(m: Mem, q: Ref, k: string, v: Value, segs: seq<string>)
    ensures var d := Descend(Update(m, q, Delete(PropsOf(m, q), k)), v, segs);
      d == Descend(m, v, segs) || d == Undef
    decreases |segs|
  {
    var m' := Update(m, q, Delete(PropsOf(m, q), k));
    if segs != [] && v.Obj? {
      var x := v.ref;
      if x == q {
        LookupDelete(PropsOf(m, q), k, segs[0]);
      } else {
        assert PropsOf(m', x) == PropsOf(m, x);
      }
      var w := Lookup(PropsOf(m, x), segs[0]);
      if Lookup(PropsOf(m', x), segs[0]) == w {
        DescendAfterDelete(m, q, k, w, segs[1..]);
      }
    }
  }

  /** After an unset the path reads `undefined`, on every heap, cyclic or not. */
  lemma GetAfterUnset(m: Mem, r: Ref, segs: seq<string>)
    requires |segs| >= 1
    ensures Descend(UnsetIn(m, r, segs), Obj(r), segs) == Undef
  {
    var m' := UnsetIn(m, r, segs);
    var pre, last := segs[..|segs| - 1], segs[|segs| - 1];
    assert segs == pre + [last];
    DescendAppend(m, Obj(r), pre, [last]);
    DescendAppend(m', Obj(r), pre, [last]);
    match Parent(m, r, segs)
    case Obj(q) =>
      DescendAfterDelete(m, q, last, Obj(r), pre);
      LookupDelete(PropsOf(m, q), last, last);
    case _ =>
  }

  /** Deleting a key that is not there (or below a non-object) is a no-op. */
  lemma UnsetAbsent(m: Mem, r: Ref, segs: seq<string>)
    requires Valid(m) && r in m.objs && |segs| >= 1
    requires Parent(m, r, segs).Obj? ==> !HasKey(PropsOf(m, Parent(m, r, segs).ref), segs[|segs| - 1])
    ensures UnsetIn(m, r, segs) == m
  {
    DescendWithin(m, Obj(r), segs[..|segs| - 1]);
    if Parent(m, r, segs).Obj? {
      var q := Parent(m, r, segs).ref;
      DeleteAbsent(m.objs[q], segs[|segs| - 1]);
      assert m.objs[q := m.objs[q]] == m.objs;
    }
  }

  /** An unset leaves alone every path that never looks up the deleted key in the parent. */
  lemma UnsetLeavesOtherPaths(m: Mem, r: Ref, segs: seq<string>, w: Value, other: seq<string>)
    requires Valid(m) && r in m.objs && |segs| >= 1 && ValueIn(m.objs.Keys, w)
    requires Parent(m, r, segs).Obj? ==> (Parent(m, r, segs).ref, segs[|segs| - 1]) !in Reads(m, w, other)
    ensures Descend(UnsetIn(m, r, segs), w, other) == Descend(m, w, other)
    ensures Reads(UnsetIn(m, r, segs), w, other) == Reads(m, w, other)
  {
    var m' := UnsetIn(m, r, segs);
    UnsetEffect(m, r, segs);
    DescendWithin(m, w, other);
    forall p | p in Reads(m, w, other)
      ensures Lookup(PropsOf(m', p.0), p.1) == Lookup(PropsOf(m, p.0), p.1)
    {
      if Parent(m, r, segs).Obj? && p.0 == Parent(m, r, segs).ref {
        LookupDelete(PropsOf(m, p.0), segs[|segs| - 1], p.1);
      }
    }
    DescendKeeps(m, m', w, other);
  }
}

=== FILE: Paths.dfy ===
/**
 * Dotted paths.  The store addresses a nested property by a string such as
 * "a.a1.a11"; the segments are the pieces between dots, and an empty piece is
 * a real (empty) key.  Split is how the path helpers read such a string;
 * Join writes segments back.
 */
module Paths {

  /**
   * The segments of c + t, given the segments of t: a dot opens a new, empty
   * first segment; any other character joins the first segment.
   */
  function Prepend(c: char, segs: seq<string>): (r: seq<string>)
    requires |segs| >= 1
    ensures |r| >= 1
  {
    if c == '.' then [""] + segs else [[c] + segs[0]] + segs[1..]
  }

  /** The segments of a dotted path, split at every '.'. */
  function Split(s: string): (segs: seq<string>)
    ensures |segs| >= 1
  {
    if s == [] then [""] else Prepend(s[0], Split(s[1..]))
  }

  /** Segments appended after the first one are untouched by Prepend. */
  lemma PrependAppend(c: char, segs: seq<string>, more: seq<string>)
    requires |segs| >= 1
    ensures Prepend(c, segs + more) == Prepend(c, segs) + more
  {
    if c != '.' {
      assert (segs + more)[1..] == segs[1..] + more;
    }
  }

  /** No segment of a split path contains a dot. */
  lemma {:induction false} SplitDotFree(s: string)
    ensures forall i :: 0 <= i < |Split(s)| ==> '.' !in Split(s)[i]
  {
    if s != [] {
      SplitDotFree(s[1..]);
      var rest := Split(s[1..]);
      if s[0] != '.' {
        assert forall i :: 1 <= i < |Split(s)| ==> Split(s)[i] == rest[i];
        assert Split(s)[0] == [s[0]] + rest[0];
      }
    }
  }

  /** The dotted path that names the given segments. */
  function Join(segs: seq<string>): string
    requires |segs| >= 1
  {
    if |segs| == 1 then segs[0] else segs[0] + "." + Join(segs[1..])
  }

  /** Joining after Prepend puts the character back in front. */
  lemma JoinPrepend(c: char, segs: seq<string>)
    requires |segs| >= 1
    ensures Join(Prepend(c, segs)) == [c] + Join(segs)
  {
    var r := Prepend(c, segs);
    if c == '.' {
      assert r[1..] == segs;
      assert Join(r) == "" + "." + Join(segs);
      assert "" + "." + Join(segs) == [c] + Join(segs);
    } else if |segs| == 1 {
      assert r == [[c] + segs[0]];
    } else {
      var x, y := segs[0], Join(segs[1..]);
      assert r[0] == [c] + x && r[1..] == segs[1..];
      assert Join(r) == ([c] + x) + "." + y;
      assert Join(segs) == x + "." + y;
      DotAssoc(c, x, y);
    }
  }

  /** Kept apart from JoinPrepend: the solver handles this regrouping cheaply only on its own. */
  lemma DotAssoc(c: char, x: string, y: string)
    ensures ([c] + x) + "." + y == [c] + (x + "." + y)
  {
  }

  /** Splitting and re-joining gives back the path: Split loses nothing. */
  lemma {:induction false} JoinSplit(s: string)
    ensures Join(Split(s)) == s
  {
    if s != [] {
      JoinSplit(s[1..]);
      JoinPrepend(s[0], Split(s[1..]));
      assert s == [s[0]] + s[1..];
    }
  }

  /** A key with no dot is a path of one segment. */
  lemma {:induction false} SplitPlain(k: string)
    requires '.' !in k
    ensures Split(k) == [k]
  {
    if k != [] {
      SplitPlain(k[1..]);
      assert k == [k[0]] + k[1..];
    }
  }

  /** Split reads one character at a time. */
  lemma SplitCons(c: char, t: string)
    ensures Split([c] + t) == Prepend(c, Split(t))
  {
    assert ([c] + t)[1..] == t;
  }

  /**
   * Writing a + "." + b addresses the segments of a followed by the segments
   * of b: this is what the store's `${scope}.${path}` templates rely on.
   */
  lemma {:induction false} SplitDotted(a: string, b: string)
    ensures Split(a + "." + b) == Split(a) + Split(b)
  {
    if a == [] {
      assert a + "." + b == ['.'] + b;
      SplitCons('.', b);
    } else {
      SplitDotted(a[1..], b);
      assert a + "." + b == [a[0]] + (a[1..] + "." + b);
      SplitCons(a[0], a[1..] + "." + b);
      PrependAppend(a[0], Split(a[1..]), Split(b));
    }
  }

  /** Joining dot-free segments and splitting again gives the segments back. */
  lemma {:induction false} SplitJoin(segs: seq<string>)
    requires |segs| >= 1
    requires forall i :: 0 <= i < |segs| ==> '.' !in segs[i]
    ensures Split(Join(segs)) == segs
  {
    SplitPlain(segs[0]);
    if |segs| > 1 {
      SplitJoin(segs[1..]);
      SplitDotted(segs[0], Join(segs[1..]));
      assert segs == [segs[0]] + segs[1..];
    }
  }
}

=== FILE: Store.dfy ===
/**
 * The store's operations over a mutable heap of objects.  `getPatch` reads the
 * heap, `patchData` rewrites the data object (and whatever lies below it) in
 * place, and `reducer` patches the data and returns a shallow copy of it.
 * Each method is proved against the function that specifies it.
 */
module Store {
  import opened Paths
  import opened Objects
  import opened Diff
  import opened Apply

  class Heap {
    var objects: map<Ref, Props>
    var next: Ref

    /** An empty heap, before any object exists. */
    constructor()
      ensures Valid() && objects == map[] && next == 0
    {
      objects := map[];
      next := 0;
    }

    /** The heap as a value. */
    function Snapshot(): Mem
      reads this
    {
      Mem(objects, next)
    }

    /** Every live object refers only to live objects and has distinct keys. */
    ghost predicate Valid()
      reads this
    {
      Objects.Valid(Snapshot())
    }

    /**
     * The `for...in` loop of `getPatch`: each key of the value, placed under
     * the scope, is kept with its value when the store holds something else there.
     */
    method DiffEntries(data: Ref, scope: Option<string>, entries: Props) returns (patch: Patch)
      ensures patch == ScopedDiff(Snapshot(), data, scope, entries)
    {
      var m := Snapshot();
      patch := [];
      var i := 0;
      while i < |entries|
        invariant 0 <= i <= |entries|
        invariant patch == ScopedDiff(m, data, scope, entries[..i])
      {
        var path := ScopedKey(scope, entries[i].0);
        var value := entries[i].1;
        ScopedDiffStep(m, data, scope, entries, i);
        if GetValue(m, data, path) != value {
          patch := patch + [(path, value)];
        }
        i := i + 1;
      }
      assert entries[..i] == entries;
    }

    /**
     * `getPatch(data, action)`: an object value without a path goes through
     * the loop; an explicit path gives at most one entry; an empty path
     * replaces the whole store or throws.
     */
    method GetPatch(data: Ref, action: Action) returns (res: Result<Patch>)
      ensures res == PatchOf(Snapshot(), data, action)
    {
      var m := Snapshot();
      if action.path.None? {
        var patch: Patch := [];
        if action.value.Obj? {
          patch := DiffEntries(data, action.scope, PropsOf(m, action.value.ref));
        }
        res := Success(patch);
      } else {
        var path := JoinedPath(action.scope, action.path.value);
        var value := action.value;
        if path != "" {
          if GetValue(m, data, path) != value {
            res := Success([(path, value)]);
          } else {
            res := Success([]);
          }
        } else if value.Obj? {
          res := Success(if data != value.ref then PropsOf(m, value.ref) else []);
        } else {
          res := Failure(InvalidPathMessage);
        }
      }
    }

    /** `lodashSet(obj, path, value)`. */
    method Set(obj: Ref, path: string, value: Value)
      requires Valid() && obj in objects && ValueIn(objects.Keys, value)
      modifies this
      ensures Snapshot() == SetIn(old(Snapshot()), obj, Split(path), value)
      ensures Valid() && old(objects).Keys <= objects.Keys
    {
      SetValid(Snapshot(), obj, Split(path), value);
      var m := SetIn(Snapshot(), obj, Split(path), value);
      objects, next := m.objs, m.next;
    }

    /** `lodashUnset(obj, path)`. */
    method Unset(obj: Ref, path: string)
      requires Valid() && obj in objects
      modifies this
      ensures Snapshot() == UnsetIn(old(Snapshot()), obj, Split(path))
      ensures Valid() && old(objects).Keys == objects.Keys
    {
      UnsetEffect(Snapshot(), obj, Split(path));
      var m := UnsetIn(Snapshot(), obj, Split(path));
      objects, next := m.objs, m.next;
    }

    /**
     * `patchData(patch, data)`: each entry in turn unsets (`undefined`) or sets
     * its path on the data itself, which is returned.
     */
    method PatchData(patch: Patch, data: Ref) returns (res: Ref)
      requires Valid() && data in objects && Within(patch, objects.Keys)
      modifies this
      ensures res == data
      ensures Snapshot() == ApplyPatch(old(Snapshot()), data, patch)
      ensures Valid() && old(objects).Keys <= objects.Keys
    {
      var i := 0;
      while i < |patch|
        invariant 0 <= i <= |patch|
        invariant Valid() && data in objects && Within(patch[i..], objects.Keys)
        invariant old(objects).Keys <= objects.Keys
        invariant ApplyPatch(Snapshot(), data, patch[i..]) == ApplyPatch(old(Snapshot()), data, patch)
      {
        var (path, value) := patch[i];
        assert patch[i..][1..] == patch[i + 1..];
        var before := objects.Keys;
        if value == Undef {
          Unset(data, path);
        } else {
          Set(data, path, value);
        }
        WithinMono(patch[i + 1..], before, objects.Keys);
        i := i + 1;
      }
      res := data;
    }

    /** An object literal `{ k1: v1, ... }`: a fresh object holding the given entries, in order. */
    method NewObject(props: Props) returns (r: Ref)
      requires Valid() && Within(props, objects.Keys) && KeysDistinct(props)
      modifies this
      ensures r == old(next) && Snapshot() == Alloc(old(Snapshot()), props)
      ensures Valid() && r !in old(objects) && objects.Keys == old(objects).Keys + {r}
    {
      ValidAlloc(Snapshot(), props);
      r := next;
      objects := objects[next := props];
      next := next + 1;
    }

    /** `{ ...src }`: a fresh object with the source object's own entries, in order. */
    method SpreadCopy(src: Ref) returns (r: Ref)
      requires Valid() && src in objects
      modifies this
      ensures (r, Snapshot()) == Spread(old(Snapshot()), src)
      ensures Valid() && r !in old(objects) && objects.Keys == old(objects).Keys + {r}
    {
      r := NewObject(objects[src]);
    }

    /**
     * `reducer(data, action)`: the same data when the patch is empty, a shallow
     * copy of the patched data otherwise.
     */
    method Reduce(data: Ref, action: Action) returns (res: Result<Ref>)
      requires Valid() && data in objects && ValueIn(objects.Keys, action.value)
      modifies this
      ensures Valid()
      ensures res.Failure? <==> Reduced(old(Snapshot()), data, action).Failure?
      ensures res.Failure? ==> res.message == InvalidPathMessage && Snapshot() == old(Snapshot())
      ensures res.Success? ==> (res.value, Snapshot()) == Reduced(old(Snapshot()), data, action).value
    {
      ReducedIdentity(Snapshot(), data, action);
      var patch := GetPatch(data, action);
      match patch {
        case Failure(e) =>
          res := Failure(e);
        case Success(p) =>
          if |p| > 0 {
            PatchWellFormed(Snapshot(), data, action);
            var patched := PatchData(p, data);
            var copy := SpreadCopy(patched);
            res := Success(copy);
          } else {
            res := Success(data);
          }
      }
    }
  }
}
